=== FILE: README.md ===
# Stake-to-commit accountability app: a Dafny model of its core

The app lets users stake money from a wallet on goals. Users set alarms and
tasks, send friend requests, and lock distracting apps behind a penalty. A
home screen tracks the day's screen time against a limit. This project
models the app's core logic as pure Dafny functions over immutable data and
proves properties of it:

- **Schema** (`schema.dfy`): the record types and enumerations. It also
  covers the insert and update shapes and the columns each shape may and may
  not set.
- **Database** (`database.dfy`): the query and write helpers, over an
  in-memory database of tables:
  - the user's goals, alarms, tasks, friendships and collaborations;
  - the newest-first transaction page with its default limit of 50;
  - the single-row reads and updates;
  - the defaults that the creation helpers fill in.
- **Ledger** (`ledger.dfy`): `stakeOnGoal` as a state transition. It
  includes the store failures that can interrupt it between the wallet write
  and the ledger insert.
- **ScreenTime** (`screen_time.dfy`): the home screen's arithmetic:
  - minutes remaining, share used and the progress colour;
  - the `"{h}h {m}m"` rendering;
  - the daily-limit editor and the reset.
- **LockedApps** (`locked_apps.dfy`): the locked-apps screen's logic:
  - cleaning and ordering the installed apps;
  - the case-insensitive search;
  - the add form and its validation;
  - picking an app from the library;
  - the lock-toggle patch.
- **Seqs**, **Text** and **Wrappers**: supporting definitions.
  - Filtering, stable ordering and taking a prefix of a sequence.
  - JavaScript's `trim`, `parseInt(_, 10)`, `toLowerCase`, `includes`, and
    `localeCompare` as an order.
  - `Option` and `Result`.

Modelling choices:

- Money is a whole number of cents.
- Timestamps are integers, ordered as the ISO strings the store keeps.
- `alarm_time` is a number of seconds into the day.
- A query's `.single()` succeeds only when exactly one row qualifies.
- An update through `.single()` that would touch a number of rows other than
  one changes nothing and fails.
- Network failures of `stakeOnGoal` are explicit fault flags.

## Model

| member | source | states |
|---|---|---|
| Schema.ParseGoalStatus | lib/database.types.ts:12-16 | Only the four status names parse, and each parsed status prints back as the same name |
| Schema.GoalStatusNameRoundTrip | lib/database.types.ts:12-16 | Every goal status is exactly one of active, completed, failed, cancelled; its name reads back as itself |
| Schema.ParseTransactionType | lib/database.types.ts:18-23 | Only the five transaction type names parse, and each parsed type prints back as the same name |
| Schema.TransactionTypeNameRoundTrip | lib/database.types.ts:18-23 | Every transaction type is exactly one of stake, penalty, reward, refund, payout; its name reads back as itself |
| Schema.GoalFromInsert | lib/database.types.ts:43-58 | A stored goal carries exactly the inserted columns (its insert shape is recovered from it) plus the id and times the store assigns |
| Schema.ApplyGoalUpdate | lib/database.types.ts:145 | No goal update reaches id, user_id, created_at or updated_at; every other column takes a given value and keeps its own when none is given; the empty update changes nothing |
| Schema.GoalUpdatesKeepIdentity | lib/database.types.ts:145 | Any two updates of one goal agree on its id, owner and timestamps |
| Schema.AlarmFromInsert | lib/database.types.ts:77-90 | A new alarm has no last_triggered (the insert shape cannot set it), and its insert shape, every inserted column, is recovered from it |
| Schema.ApplyAlarmClockUpdate | lib/database.types.ts:148 | An alarm update cannot change id, user_id, created_at or updated_at; every other column, last_triggered included, takes a given value and keeps its own when none is given |
| Schema.TaskFromInsert | lib/database.types.ts:150 | A task insert cannot set is_completed or completed_at: a new task is open with no completion time, and its insert shape, every inserted column, is recovered from it |
| Database.Single | lib/database.ts:23-30 | `.single()` succeeds exactly when one row qualifies, and returns that row |
| Database.GetProfile | lib/database.ts:20-31 | The profile is found exactly when the user has one, and it is that user's row |
| Database.SetWalletBalance | lib/database.ts:322 | The balance write names only wallet_balance |
| Database.ApplyProfileUpdate | lib/database.ts:33-45 | A profile update keeps the id and timestamps; each of username, full name, email, wallet and the two earnings totals takes a given value and keeps its own when none is given |
| Database.UpdateProfile | lib/database.ts:33-45 | Updating a missing profile fails; otherwise only that user's profile row changes, to the updated row returned |
| Database.CreateGoal | lib/database.ts:48-59 | Creating a goal appends one row carrying the inserted columns and the assigned id and time; nothing else changes |
| Database.GetGoals | lib/database.ts:61-77 | Exactly the user's goals with the requested status (all when none or empty), each as often as stored, newest first |
| Database.GetGoalsUnknownStatus | lib/database.ts:70-72 | A status filter that names no goal status lists nothing |
| Database.CreatedGoalIsListed | lib/database.ts:48-77 | A created goal appears in its owner's list, unfiltered and filtered by its own status |
| Database.GetGoal | lib/database.ts:79-90 | A goal is returned exactly when one stored goal has the id, and it is that goal |
| Database.UpdateGoal | lib/database.ts:92-104 | Updating fails, changing nothing, unless exactly one goal has the id; otherwise that row alone becomes the updated goal, order and length kept |
| Database.CreateAlarmClock | lib/database.ts:107-118 | Creating an alarm appends one never-triggered row carrying every inserted column, the assigned id and time; nothing else changes |
| Database.CreatedAlarmIsListed | lib/database.ts:107-136 | A created alarm appears in its owner's list; with only active alarms asked for, exactly when it was created active |
| Database.GetAlarmClocks | lib/database.ts:120-136 | Exactly the user's alarms (only active ones when asked; all by default), each as often as stored, earliest alarm time first |
| Database.UpdateAlarmClock | lib/database.ts:138-150 | Fails, changing nothing, unless exactly one alarm has the id; otherwise that alarm alone becomes its update |
| Database.CreateTask | lib/database.ts:153-164 | Creating a task appends one open row with no completion time, carrying every inserted column, the assigned id and time; nothing else changes |
| Database.CreatedTaskIsListedOpen | lib/database.ts:153-182 | A created task appears in its owner's list unfiltered and among the open tasks, and not among the completed ones |
| Database.GetTasks | lib/database.ts:166-182 | Exactly the user's tasks with the requested completion state (all when not given), each as often as stored, newest first |
| Database.CompleteTask | lib/database.ts:184-199 | Fails, changing nothing, unless exactly one task has the id; otherwise that task alone becomes completed at the given time |
| Database.CompletedTaskIsListedCompleted | lib/database.ts:166-199 | A completed task is listed among its owner's completed tasks and not among the open ones |
| Database.GetTransactions | lib/database.ts:202-214 | At most `limit` (default 50) of the user's rows, only the user's, newest first; every row left out is no newer than every row returned |
| Database.NewestRowIsOnPage | lib/database.ts:202-214 | A user's newest row is on, and heads, every non-empty first page of their history |
| Database.GetFriendships | lib/database.ts:217-228 | Exactly the accepted friendships on either side of the user, each from the table |
| Database.SendFriendRequest | lib/database.ts:230-245 | A request appends one pending row from the user to the friend |
| Database.FriendRequestNotListed | lib/database.ts:217-245 | A fresh request shows up in nobody's friend list until accepted |
| Database.CreateGoalCollaboration | lib/database.ts:248-269 | Appends one collaboration with the given goal, collaborator, stake and earn-if-fails flag |
| Database.CollaborationDefaultsToEarnIfFails | lib/database.ts:252 | Without an explicit flag the collaborator earns if the goal fails |
| Database.GetGoalCollaborations | lib/database.ts:271-281 | Exactly the collaborations on the goal, each from the table |
| Database.CreatedCollaborationIsListed | lib/database.ts:248-281 | A created collaboration appears among the collaborations on its goal |
| Database.CreateVerification | lib/database.ts:284-308 | A new verification is unapproved, unreviewed, and carries the given goal, user, verification type, data and value |
| Ledger.StakeRow | lib/database.ts:327-338 | The ledger row of a stake: amount is minus the stake, type stake, linked to the goal, before/after balances consistent |
| Ledger.StakeOnGoal | lib/database.ts:311-341 | A failed read changes nothing; missing profile and insufficient funds fail changing nothing; with funds, a failed balance write changes nothing, a failed insert leaves the wallet debited and the ledger as it was, and success debits exactly the amount and appends one stake row whose balance_after is the new wallet balance |
| Ledger.StakeKeepsBalancesAgree | lib/database.ts:336-337 | If every ledger row's before/after balances agree with its amount, they still do after any stake attempt |
| Ledger.StakeWholeBalance | lib/database.ts:316-322 | Staking the whole balance is accepted and leaves exactly zero |
| Ledger.StakeKeepsWalletNonNegative | lib/database.ts:316-322 | A non-negative wallet stays non-negative whatever the stake attempt and its failures |
| Ledger.StakeKeepsReconciled | lib/database.ts:321-338 | A successful stake keeps every wallet equal to its opening balance plus the user's ledger rows |
| Ledger.StakeInsertFailureUnreconciles | lib/database.ts:322-340 | As written, any non-zero affordable stake whose ledger insert fails after the wallet write reports the insert failure and leaves the wallet out of step with the ledger |
| Ledger.NegativeStakeCredits | lib/database.ts:316-322 | As written, a negative stake passes the funds check and increases the wallet |
| Ledger.StakeOnGoalAtomic | lib/database.ts:311-341 | Corrected stake: a non-positive amount is refused; a positive one reports what the as-written stake reports; any failure changes nothing; success is exactly the as-written success (the amount debited, one stake row appended) |
| Ledger.AtomicStakeKeepsReconciled | lib/database.ts:311-341 | The corrected stake keeps wallets and ledger reconciled under every failure |
| Ledger.StakeHeadsHistory | lib/database.ts:202-214 | A successful stake's row is the first entry of the user's first transaction page when it is their newest |
| ScreenTime.FormatTime | app/home.tsx:71-78 | The rendering ends in "m" and shows an "h" part exactly when the duration is an hour or more |
| ScreenTime.FormatTimeRoundTrip | app/home.tsx:71-78 | The rendering reads back, as unpadded numerals with hours above 0 and minutes below 60, to the exact duration |
| ScreenTime.ReadDurationIsRendering | app/home.tsx:71-78 | Any text that reads back as a duration is exactly that duration's rendering, so the reader accepts the rendered form and nothing else |
| ScreenTime.ParsedHoursAreQuotient | app/home.tsx:72-75 | In a rendering read back, the hours shown are the duration divided by 60 and the minutes the remainder |
| ScreenTime.FormatTimeInjective | app/home.tsx:71-78 | Different durations never render alike |
| ScreenTime.MinutesRemaining | app/home.tsx:49-51 | Never negative; zero exactly when the limit is exceeded; otherwise what is left until the limit |
| ScreenTime.PercentageUsed | app/home.tsx:50 | Capped at 100, reaching it exactly when the limit is reached; below the cap it is the exact share used |
| ScreenTime.ProgressColorThresholds | app/home.tsx:80-84 | Red exactly at or over the limit, orange from four fifths of it, the tint below |
| ScreenTime.InitialHome | app/home.tsx:23-26 | The screen starts with no usage, not editing, and the limit of 120 minutes |
| ScreenTime.HandleSetLimit | app/home.tsx:53-62 | Non-numeric or non-positive input is refused with no change; otherwise the parsed value becomes the limit and editing ends |
| ScreenTime.RunKeepsLimitPositive | app/home.tsx:24-62 | No sequence of edits, saves, cancels, resets or timer ticks makes the limit non-positive |
| ScreenTime.ReachableLimitPositive | app/home.tsx:24 | Every reachable state has a positive limit, so the share used is always defined |
| ScreenTime.EditThenSaveKeepsLimit | app/home.tsx:183-186 | Opening the editor and saving untouched keeps any limit up to 2^53 - 1 and leaves edit mode |
| ScreenTime.ResetClearsUsage | app/home.tsx:275-278 | After a reset usage is zero, the whole limit remains, and nothing is used |
| LockedApps.CleanInstalledApps | app/locked-apps.tsx:170-172 | Exactly the apps with a non-empty name and package, each as often as reported, ordered by name |
| LockedApps.FilteredApps | app/locked-apps.tsx:190-193 | A subsequence of the list holding exactly the apps whose lowercased name or package contains the lowercased query |
| LockedApps.EmptyQueryKeepsAll | app/locked-apps.tsx:190-193 | An empty query keeps every app that has a name or package |
| LockedApps.CleanedListShownUnfiltered | app/locked-apps.tsx:171-193 | With no search typed, the library shows the whole cleaned list |
| LockedApps.SearchIgnoresQueryCase | app/locked-apps.tsx:190-193 | Searching a lowercased query shows the same apps as the query itself |
| LockedApps.LongerQueryNarrows | app/locked-apps.tsx:190-193 | Extending the query keeps a subsequence of the previous results |
| LockedApps.HandleAddApp | app/locked-apps.tsx:76-120 | Blank trimmed name or package is refused with no create call; without a session nothing is sent; otherwise the trimmed values are sent, and only success resets the form, exactly as Cancel would |
| LockedApps.AddSendsTrimmedValues | app/locked-apps.tsx:95-102 | The name and package sent have no surrounding white space |
| LockedApps.NoSecondAddAfterSuccess | app/locked-apps.tsx:105-108 | Pressing Add right after a successful add sends nothing |
| LockedApps.CancelAdd | app/locked-apps.tsx:303-307 | Cancel closes and empties the form, the penalty back to "0", and leaves the library as it was |
| LockedApps.CancelRestoresInitialForm | app/locked-apps.tsx:39-45 | After Cancel the add form is exactly as the screen first showed it |
| LockedApps.LoadInstalledApps | app/locked-apps.tsx:168-174 | The library opens showing exactly the cleaned device list: only user apps, ordered by name; nothing else changes |
| LockedApps.SelectApp | app/locked-apps.tsx:182-188 | The app's name and package fill the form, the library closes with its search cleared, and the form opens |
| LockedApps.CloseLibrary | app/locked-apps.tsx:417-430 | Closing the library, by its button or by dismissing it, clears the search and keeps the form and the loaded list |
| LockedApps.LibraryReopensUnfiltered | app/locked-apps.tsx:182-193 | After closing the library or picking from it, the next opening shows the whole loaded list |
| LockedApps.PickedUserAppFillsForm | app/locked-apps.tsx:171-188 | Picking an app of the cleaned list fills both form fields with non-empty text |
| LockedApps.TogglePatch | app/locked-apps.tsx:126 | The patch names only is_locked, set to the opposite of the current value |
| LockedApps.ToggleFlipsOnlyLock | app/locked-apps.tsx:122-131 | Applying the patch flips the lock and nothing else; toggling twice restores the app |
| Text.Trim | app/locked-apps.tsx:77 | The result is the input with its surrounding white space removed; it is empty exactly when the input is all white space |
| Text.ParseIntOfDigits | app/home.tsx:54 | Typed digits read as the decimal number they spell, for numbers up to 2^53 - 1 |
| Text.ParseIntNegative | app/home.tsx:54-55 | Only text with a minus sign yields a negative number, which the limit check then refuses |
| Text.ParseIntIgnoresTail | app/home.tsx:54 | Text after a number up to 2^53 - 1 that does not continue it (such as " min") is ignored |
| Text.NatToStringRoundTrip | app/home.tsx:185 | A limit up to 2^53 - 1 written out as text reads back as the same number |
| Text.LexLeTotalPreorder | app/locked-apps.tsx:172 | The name order used for sorting is total and transitive |

## Left out

- Network and environment. The Supabase client, its "not configured" guards,
  sessions, navigation, `Alert` dialogs, styles and the screen-time
  `setInterval` timer are not modelled. The timer appears only as a `Track`
  action carrying the minute count it would report.
- The reset also restarts the session clock. That clock belongs to the timer
  and is not modelled.
- Concurrency. Only sequential runs are modelled. Two interleaved stakes
  could both pass the funds check; that is not modelled.
- Floating point:
  - Money is whole cents.
  - `parseFloat(penaltyAmount) || 0` is a parameter `parsePenalty` of
    `LockedApps.HandleAddApp`.
  - The share used is an exact `real`, not an IEEE double.
  - `toFixed` display formatting is not modelled.
- Unicode. `toLowerCase` lowers ASCII letters only. `trim` and `parseInt`
  know the ASCII white space, no-break space, line/paragraph separators and
  the byte-order mark, not every Unicode space.
- LockedApps.CleanInstalledApps: `localeCompare` is modelled as code-point
  order, which differs from locale order even on ASCII text ("Banana" comes
  before "apple" by code point). The proofs use only that the order is a
  total preorder.
- Text.ParseInt, Text.NatToString: exact on integers of any size. A
  JavaScript `number` rounds above 2^53 - 1, and `String` writes exponent
  form from 10^21 on (`parseInt` then reads "1e+21" as 1). The screen's
  limit editor (`ScreenTime.Step`) therefore differs from the model above
  `Text.MaxSafeInteger`.
- ScreenTime.EditThenSaveKeepsLimit, Text.NatToStringRoundTrip,
  Text.ParseIntOfDigits, Text.ParseIntIgnoresTail: stated only for numbers
  up to `Text.MaxSafeInteger` (2^53 - 1), because a larger limit does not
  survive JavaScript's `toString` and `parseInt` unchanged.
- The locked-app store helpers. `createLockedApp`, `updateLockedApp`,
  `deleteLockedApp` and `getLockedApps` are imported by the screen, but
  their definitions are not part of this model.
  - Adding an app is modelled as the request sent plus a success flag.
  - The toggle's patch is applied as a partial update.
  - Deleting and listing locked apps are left out.
- The user-facing alert texts are left out, including the "database setup
  required" alert for a missing table.
- Goal resolution, collaborator payouts and alarm penalties are not modelled.
  The app's core does not implement them. `AlarmLog` is declared only.
- Database.GetProfile: a missing row makes `.single()` raise the store's own
  error before the "Profile not found" check runs. The model reports both as
  the same failure (`ProfileNotFound` in `Ledger.StakeOnGoal`).
- Database.CreateTask: the open-task defaults are the table's column
  defaults, which are not part of this model. They are assumed, as
  `TaskInsert` cannot set them.
- Database.UpdateProfile: `Partial<Profile>` could also name id or
  timestamps. The model's update shape covers only the mutable columns.
- Database.GetGoals, Database.GetTasks, Database.GetTransactions,
  Database.GetAlarmClocks: rows with equal sort keys (`created_at`, or
  `alarm_time` for alarms) are ordered stably by insertion. The store
  promises no order among ties.
- Database.GetFriendships, Database.GetGoalCollaborations: these queries
  have no ordering, so the store promises none. The model returns the rows
  in table order; that order is its own choice.
- Database.GetGoalsUnknownStatus: assumes `status` is a text column, so a
  name no status prints matches no row. If the column is an enumerated type
  the store rejects the query instead, and `getGoals` throws. The table
  definitions are not part of this model.
- The simple helpers' store failures (network errors, RLS refusals) are not
  modelled. Only the single-row rule and the stake's faults are.
- Database.CreateVerification: `verificationType` is one of the four names
  `VerificationType` declares (photo, document, api, manual), as the record
  type requires. The helper's parameter is any string; other text is not
  modelled.
- `TaskUpdate` is declared but no helper uses it, so it is not modelled.
- Ledger.StakeRow: the description is recorded as the staked amount rather
  than the formatted text `Staked $… on goal`.
- ScreenTime.FormatTime: it takes a natural number of minutes. If the
  device clock goes back, the tracked minutes (app/home.tsx:37) are
  negative and the screen shows text such as "-5m"; negative durations are
  not modelled. FormatTime also differs from the screen above
  `Text.MaxSafeInteger` minutes, where JavaScript's division and remainder
  are no longer exact, and for hours from 10^21 on, which JavaScript
  writes in exponent form.
- LockedApps.LoadInstalledApps: only the success path is modelled. Off
  Android, without the installed-apps module, or when the call throws, the
  screen only shows an alert and changes nothing.

## Findings

| source | as written | input that shows it | evidently intended | confidence | as-written member | corrected member |
|---|---|---|---|---|---|---|
| lib/database.ts:322-340 | The wallet is debited first; if the ledger insert then fails, the error is thrown without restoring the balance | Wallet 1000, stake 100, transaction insert fails: wallet 900, no ledger row | The debit and the ledger row take effect together or not at all, keeping wallet = opening + ledger | medium, not executed | Ledger.StakeInsertFailureUnreconciles | Ledger.AtomicStakeKeepsReconciled |
| lib/database.ts:316 | Only `wallet_balance < amount` is checked, so a negative amount passes and credits the wallet | Wallet 0, stake -500: accepted, wallet 500 | A stake must be a positive amount | medium, not executed | Ledger.NegativeStakeCredits | Ledger.StakeOnGoalAtomic |

=== FILE: database.dfy ===
/** The data-access helpers: each reads or writes the in-memory tables the
    way the corresponding query does against the hosted database. Rows the
    store generates identifiers and timestamps for take them as arguments. */
module Database {
  import opened Wrappers
  import opened Schema
  import Seqs

  /** The application's tables. Profiles are keyed by user id. */
  datatype Db = Db(
    profiles: map<Id, Profile>,
    goals: seq<Goal>,
    alarms: seq<AlarmClock>,
    tasks: seq<Task>,
    transactions: seq<Transaction>,
    friendships: seq<Friendship>,
    collaborations: seq<GoalCollaboration>,
    verifications: seq<Verification>)

  /** A query that asked for exactly one row matched none or several. */
  datatype DbError = NotSingleRow

  /** The tables after a write, and the row the write returned. */
  datatype Written<T> = Written(db: Db, row: T)

  /** The only row of `rows`, or `NotSingleRow`. */
  function Single<T>(rows: seq<T>): (r: Result<T, DbError>)
    ensures r.Ok? <==> |rows| == 1
    ensures r.Ok? ==> r.value == rows[0]
  {
    if |rows| == 1 then Ok(rows[0]) else Err(NotSingleRow)
  }

  // --------------------------------------------------------------- profiles

  function GetProfile(db: Db, userId: Id): (r: Result<Profile, DbError>)
    ensures r.Ok? <==> userId in db.profiles
    ensures r.Ok? ==> r.value == db.profiles[userId]
  {
    if userId in db.profiles then Ok(db.profiles[userId]) else Err(NotSingleRow)
  }

  /** A change to a profile's own columns; for a nullable column the outer
      `Option` says whether it is changed. */
  datatype ProfileUpdate = ProfileUpdate(
    username: Option<Option<string>>,
    full_name: Option<Option<string>>,
    email: Option<Option<string>>,
    wallet_balance: Option<Cents>,
    total_earned: Option<Cents>,
    total_lost: Option<Cents>)

  /** An update that sets the wallet balance and nothing else. */
  function SetWalletBalance(balance: Cents): (u: ProfileUpdate)
    ensures u.wallet_balance == Some(balance)
    ensures u.username.None? && u.full_name.None? && u.email.None?
    ensures u.total_earned.None? && u.total_lost.None?
  {
    ProfileUpdate(None, None, None, Some(balance), None, None)
  }

  function ApplyProfileUpdate(p: Profile, u: ProfileUpdate): (r: Profile)
    ensures r.id == p.id && r.created_at == p.created_at && r.updated_at == p.updated_at
    ensures TakenOrKept(u.username, p.username, r.username)
    ensures TakenOrKept(u.full_name, p.full_name, r.full_name)
    ensures TakenOrKept(u.email, p.email, r.email)
    ensures TakenOrKept(u.wallet_balance, p.wallet_balance, r.wallet_balance)
    ensures TakenOrKept(u.total_earned, p.total_earned, r.total_earned)
    ensures TakenOrKept(u.total_lost, p.total_lost, r.total_lost)
  {
    p.(username := Pick(u.username, p.username),
       full_name := Pick(u.full_name, p.full_name),
       email := Pick(u.email, p.email),
       wallet_balance := Pick(u.wallet_balance, p.wallet_balance),
       total_earned := Pick(u.total_earned, p.total_earned),
       total_lost := Pick(u.total_lost, p.total_lost))
  }

  /** Updates the user's profile row; fails, changing nothing, when there is none.
      No other row or table changes. */
  function UpdateProfile(db: Db, userId: Id, u: ProfileUpdate): (r: Result<Written<Profile>, DbError>)
    ensures r.Err? <==> userId !in db.profiles
    ensures r.Ok? ==> r.value.db == db.(profiles := db.profiles[userId := r.value.row])
    ensures r.Ok? ==> r.value.row == ApplyProfileUpdate(db.profiles[userId], u)
  {
    if userId !in db.profiles then Err(NotSingleRow)
    else
      var p := ApplyProfileUpdate(db.profiles[userId], u);
      Ok(Written(db.(profiles := db.profiles[userId := p]), p))
  }

  // ------------------------------------------------------------------ goals

  predicate GoalNewerOrSame(a: Goal, b: Goal)
  {
    a.created_at >= b.created_at
  }

  /** Appends the goal an insert describes; nothing else changes. */
  function CreateGoal(db: Db, g: GoalInsert, id: Id, now: Timestamp): (w: Written<Goal>)
    ensures w.db == db.(goals := db.goals + [w.row])
    ensures GoalToInsert(w.row) == g && w.row.id == id && w.row.created_at == now
  {
    var row := GoalFromInsert(g, id, now);
    Written(db.(goals := db.goals + [row]), row)
  }

  /** The optional status filter is applied only when it is a non-empty text. */
  predicate StatusFilterGiven(status: Option<string>)
  {
    status.Some? && status.value != ""
  }

  predicate GoalListed(g: Goal, userId: Id, status: Option<string>)
  {
    g.user_id == userId && (!StatusFilterGiven(status) || GoalStatusName(g.status) == status.value)
  }

  /** The user's goals, restricted to one status when a status text is given,
      newest first. */
  function GetGoals(db: Db, userId: Id, status: Option<string>): (r: seq<Goal>)
    ensures forall g :: g in r <==> g in db.goals && GoalListed(g, userId, status)
    ensures forall g :: multiset(r)[g] == if GoalListed(g, userId, status) then multiset(db.goals)[g] else 0
    ensures Seqs.SortedBy(r, GoalNewerOrSame)
  {
    var mine := Seqs.Filter(db.goals, g => GoalListed(g, userId, status));
    Seqs.FilterMultiset(db.goals, g => GoalListed(g, userId, status));
    GoalOrderIsPreorder();
    Seqs.SortBy(mine, GoalNewerOrSame)
  }

  lemma GoalOrderIsPreorder()
    ensures Seqs.TotalPreorder(GoalNewerOrSame)
  {
  }

  /** A status text that names no status matches no goal. */
  lemma GetGoalsUnknownStatus(db: Db, userId: Id, status: string)
    requires status != "" && ParseGoalStatus(status).None?
    ensures GetGoals(db, userId, Some(status)) == []
  {
    var r := GetGoals(db, userId, Some(status));
    forall g | g in db.goals ensures !GoalListed(g, userId, Some(status)) {
      GoalStatusNameRoundTrip(g.status);
    }
    assert multiset(r) == multiset{};
  }

  /** A freshly created goal is among its owner's goals, and among those with its status. */
  lemma CreatedGoalIsListed(db: Db, g: GoalInsert, id: Id, now: Timestamp)
    ensures CreateGoal(db, g, id, now).row in GetGoals(CreateGoal(db, g, id, now).db, g.user_id, None)
    ensures CreateGoal(db, g, id, now).row in
      GetGoals(CreateGoal(db, g, id, now).db, g.user_id, Some(GoalStatusName(g.status)))
  {
    var w := CreateGoal(db, g, id, now);
    assert w.row in w.db.goals;
  }

  predicate HasId(g: Goal, goalId: Id)
  {
    g.id == goalId
  }

  /** The goal with this id; an error unless exactly one row has it. */
  function GetGoal(db: Db, goalId: Id): (r: Result<Goal, DbError>)
    ensures r.Ok? <==> Seqs.Count(db.goals, g => HasId(g, goalId)) == 1
    ensures r.Ok? ==> r.value in db.goals && r.value.id == goalId
  {
    var hits := Seqs.Filter(db.goals, g => HasId(g, goalId));
    Seqs.FilterLength(db.goals, g => HasId(g, goalId));
    assert |hits| > 0 ==> hits[0] in hits;
    Single(hits)
  }

  /** Applies the update to the goal with this id. With no such goal, or
      several, nothing changes and the call fails. */
  function UpdateGoal(db: Db, goalId: Id, u: GoalUpdate): (r: Result<Written<Goal>, DbError>)
    ensures r.Err? <==> GetGoal(db, goalId).Err?
    ensures r.Ok? ==> r.value.row == ApplyGoalUpdate(GetGoal(db, goalId).value, u)
    ensures r.Ok? ==> r.value.db == db.(goals := r.value.db.goals)
    ensures r.Ok? ==> |r.value.db.goals| == |db.goals|
    ensures r.Ok? ==> forall i :: 0 <= i < |db.goals| ==>
      r.value.db.goals[i] == if db.goals[i].id == goalId then r.value.row else db.goals[i]
  {
    match GetGoal(db, goalId)
    case Err(e) => Err(e)
    case Ok(found) =>
      var row := ApplyGoalUpdate(found, u);
      var goals := Seqs.MapWhere(db.goals, g => HasId(g, goalId), g => row);
      Ok(Written(db.(goals := goals), row))
  }

  // ----------------------------------------------------------------- alarms

  predicate AlarmEarlierOrSame(a: AlarmClock, b: AlarmClock)
  {
    a.alarm_time <= b.alarm_time
  }

  /** Appends the alarm an insert describes; it starts never triggered. */
  function CreateAlarmClock(db: Db, a: AlarmClockInsert, id: Id, now: Timestamp): (w: Written<AlarmClock>)
    ensures w.db == db.(alarms := db.alarms + [w.row])
    ensures w.row.last_triggered.None? && w.row.id == id && w.row.created_at == now
    ensures AlarmToInsert(w.row) == a
  {
    var row := AlarmFromInsert(a, id, now);
    Written(db.(alarms := db.alarms + [row]), row)
  }

  predicate AlarmListed(a: AlarmClock, userId: Id, activeOnly: bool)
  {
    a.user_id == userId && (!activeOnly || a.is_active)
  }

  /** The user's alarms, only the active ones when asked, earliest time of day first. */
  function GetAlarmClocks(db: Db, userId: Id, activeOnly: bool := false): (r: seq<AlarmClock>)
    ensures forall a :: a in r <==> a in db.alarms && AlarmListed(a, userId, activeOnly)
    ensures forall a :: multiset(r)[a] == if AlarmListed(a, userId, activeOnly) then multiset(db.alarms)[a] else 0
    ensures Seqs.SortedBy(r, AlarmEarlierOrSame)
  {
    var mine := Seqs.Filter(db.alarms, a => AlarmListed(a, userId, activeOnly));
    Seqs.FilterMultiset(db.alarms, a => AlarmListed(a, userId, activeOnly));
    AlarmOrderIsPreorder();
    var r := Seqs.SortBy(mine, AlarmEarlierOrSame);
    assert forall a :: a in r <==> a in mine by {
      forall a ensures a in r <==> a in mine {
        assert a in r <==> multiset(r)[a] > 0;
      }
    }
    r
  }

  /** A freshly created alarm is among its owner's alarms, and among the
      active-only ones exactly when it was created active. */
  lemma CreatedAlarmIsListed(db: Db, a: AlarmClockInsert, id: Id, now: Timestamp, activeOnly: bool)
    ensures var w := CreateAlarmClock(db, a, id, now);
      w.row in GetAlarmClocks(w.db, a.user_id, activeOnly) <==> !activeOnly || a.is_active
  {
    var w := CreateAlarmClock(db, a, id, now);
    assert w.row in w.db.alarms;
  }

  lemma AlarmOrderIsPreorder()
    ensures Seqs.TotalPreorder(AlarmEarlierOrSame)
  {
  }

  predicate AlarmHasId(a: AlarmClock, alarmId: Id)
  {
    a.id == alarmId
  }

  /** `row` is the alarm `before`, which has the id, with the update applied. */
  predicate UpdatedFrom(row: AlarmClock, before: AlarmClock, alarmId: Id, u: AlarmClockUpdate)
  {
    before.id == alarmId && row == ApplyAlarmClockUpdate(before, u)
  }

  /** Applies the update to the alarm with this id; fails, changing nothing,
      unless exactly one alarm has it. */
  function UpdateAlarmClock(db: Db, alarmId: Id, u: AlarmClockUpdate): (r: Result<Written<AlarmClock>, DbError>)
    ensures r.Err? <==> Seqs.Count(db.alarms, a => AlarmHasId(a, alarmId)) != 1
    ensures r.Ok? ==> r.value.row.id == alarmId
    ensures r.Ok? ==> r.value.db == db.(alarms := r.value.db.alarms)
    ensures r.Ok? ==> |r.value.db.alarms| == |db.alarms|
    ensures r.Ok? ==> forall i :: 0 <= i < |db.alarms| ==>
      r.value.db.alarms[i] == if db.alarms[i].id == alarmId then r.value.row else db.alarms[i]
    ensures r.Ok? ==> exists i :: 0 <= i < |db.alarms| && UpdatedFrom(r.value.row, db.alarms[i], alarmId, u)
  {
    var hits := Seqs.Filter(db.alarms, a => AlarmHasId(a, alarmId));
    Seqs.FilterLength(db.alarms, a => AlarmHasId(a, alarmId));
    match Single(hits)
    case Err(e) => Err(e)
    case Ok(found) =>
      assert found in hits;
      var i :| 0 <= i < |db.alarms| && db.alarms[i] == found;
      var row := ApplyAlarmClockUpdate(found, u);
      var alarms := Seqs.MapWhere(db.alarms, a => AlarmHasId(a, alarmId), a => row);
      Ok(Written(db.(alarms := alarms), row))
  }

  // ------------------------------------------------------------------ tasks

  predicate TaskNewerOrSame(a: Task, b: Task)
  {
    a.created_at >= b.created_at
  }

  /** Appends the task an insert describes; it starts open. */
  function CreateTask(db: Db, t: TaskInsert, id: Id, now: Timestamp): (w: Written<Task>)
    ensures w.db == db.(tasks := db.tasks + [w.row])
    ensures !w.row.is_completed && w.row.completed_at.None?
    ensures w.row.id == id && w.row.created_at == now
    ensures TaskToInsert(w.row) == t
  {
    var row := TaskFromInsert(t, id, now);
    Written(db.(tasks := db.tasks + [row]), row)
  }

  predicate TaskListed(t: Task, userId: Id, completed: Option<bool>)
  {
    t.user_id == userId && (completed.None? || t.is_completed == completed.value)
  }

  /** The user's tasks, only those with the given completion state when one
      is given, newest first. */
  function GetTasks(db: Db, userId: Id, completed: Option<bool>): (r: seq<Task>)
    ensures forall t :: t in r <==> t in db.tasks && TaskListed(t, userId, completed)
    ensures forall t :: multiset(r)[t] == if TaskListed(t, userId, completed) then multiset(db.tasks)[t] else 0
    ensures Seqs.SortedBy(r, TaskNewerOrSame)
  {
    var mine := Seqs.Filter(db.tasks, t => TaskListed(t, userId, completed));
    Seqs.FilterMultiset(db.tasks, t => TaskListed(t, userId, completed));
    TaskOrderIsPreorder();
    Seqs.SortBy(mine, TaskNewerOrSame)
  }

  lemma TaskOrderIsPreorder()
    ensures Seqs.TotalPreorder(TaskNewerOrSame)
  {
  }

  predicate TaskHasId(t: Task, taskId: Id)
  {
    t.id == taskId
  }

  /** `row` is the task `before`, which has the id, marked completed at `now`. */
  predicate CompletedFrom(row: Task, before: Task, taskId: Id, now: Timestamp)
  {
    before.id == taskId && row == before.(is_completed := true, completed_at := Some(now))
  }

  /** Marks the task with this id completed at `now`; every other column of
      it and every other row stays. Fails, changing nothing, unless exactly
      one task has the id. */
  function CompleteTask(db: Db, taskId: Id, now: Timestamp): (r: Result<Written<Task>, DbError>)
    ensures r.Err? <==> Seqs.Count(db.tasks, t => TaskHasId(t, taskId)) != 1
    ensures r.Ok? ==> r.value.row.is_completed && r.value.row.completed_at == Some(now)
    ensures r.Ok? ==> exists i :: 0 <= i < |db.tasks| && CompletedFrom(r.value.row, db.tasks[i], taskId, now)
    ensures r.Ok? ==> r.value.db == db.(tasks := r.value.db.tasks)
    ensures r.Ok? ==> |r.value.db.tasks| == |db.tasks|
    ensures r.Ok? ==> forall i :: 0 <= i < |db.tasks| ==>
      r.value.db.tasks[i] == if db.tasks[i].id == taskId then r.value.row else db.tasks[i]
  {
    var hits := Seqs.Filter(db.tasks, t => TaskHasId(t, taskId));
    Seqs.FilterLength(db.tasks, t => TaskHasId(t, taskId));
    match Single(hits)
    case Err(e) => Err(e)
    case Ok(found) =>
      assert found in hits;
      var i :| 0 <= i < |db.tasks| && db.tasks[i] == found;
      var row := found.(is_completed := true, completed_at := Some(now));
      var tasks := Seqs.MapWhere(db.tasks, t => TaskHasId(t, taskId), t => row);
      Ok(Written(db.(tasks := tasks), row))
  }

  /** A freshly created task is among its owner's tasks and the open ones,
      and not among the completed ones. */
  lemma CreatedTaskIsListedOpen(db: Db, t: TaskInsert, id: Id, now: Timestamp)
    ensures var w := CreateTask(db, t, id, now);
      && w.row in GetTasks(w.db, t.user_id, None)
      && w.row in GetTasks(w.db, t.user_id, Some(false))
      && w.row !in GetTasks(w.db, t.user_id, Some(true))
  {
    var w := CreateTask(db, t, id, now);
    assert w.row in w.db.tasks;
    TaskIsListed(w.db, w.row, t.user_id, None);
    TaskIsListed(w.db, w.row, t.user_id, Some(false));
    TaskIsNotListed(w.db, w.row, t.user_id, Some(true));
  }

  /** A completed task shows among the user's completed tasks and no longer
      among the open ones. */
  lemma CompletedTaskIsListedCompleted(db: Db, taskId: Id, now: Timestamp)
    requires CompleteTask(db, taskId, now).Ok?
    ensures var w := CompleteTask(db, taskId, now).value;
      w.row in GetTasks(w.db, w.row.user_id, Some(true)) &&
      w.row !in GetTasks(w.db, w.row.user_id, Some(false))
  {
    var w := CompleteTask(db, taskId, now).value;
    var i :| 0 <= i < |db.tasks| && CompletedFrom(w.row, db.tasks[i], taskId, now);
    assert w.db.tasks[i] == w.row;
    TaskIsListed(w.db, w.row, w.row.user_id, Some(true));
    TaskIsNotListed(w.db, w.row, w.row.user_id, Some(false));
  }

  lemma TaskIsListed(db: Db, t: Task, userId: Id, completed: Option<bool>)
    requires t in db.tasks && TaskListed(t, userId, completed)
    ensures t in GetTasks(db, userId, completed)
  {
  }

  lemma TaskIsNotListed(db: Db, t: Task, userId: Id, completed: Option<bool>)
    requires !TaskListed(t, userId, completed)
    ensures t !in GetTasks(db, userId, completed)
  {
  }

  // ----------------------------------------------------------- transactions

  predicate TxNewerOrSame(a: Transaction, b: Transaction)
  {
    a.created_at >= b.created_at
  }

  predicate TxOf(t: Transaction, userId: Id)
  {
    t.user_id == userId
  }

  lemma TxOrderIsPreorder()
    ensures Seqs.TotalPreorder(TxNewerOrSame)
  {
  }

  /** The page size `getTransactions` uses when the caller gives none. */
  const DefaultTransactionLimit: nat := 50

  /** The user's ledger rows, newest first, at most `limit` of them. When the
      user has more, the ones left out are no newer than any returned. */
  function GetTransactions(db: Db, userId: Id, limit: nat := DefaultTransactionLimit): (r: seq<Transaction>)
    ensures |r| == if limit <= Seqs.Count(db.transactions, t => TxOf(t, userId)) then limit
                   else Seqs.Count(db.transactions, t => TxOf(t, userId))
    ensures forall t :: t in r ==> t in db.transactions && t.user_id == userId
    ensures forall t :: multiset(r)[t] <= multiset(db.transactions)[t]
    ensures Seqs.SortedBy(r, TxNewerOrSame)
    ensures forall t: Transaction, u :: u in r && t.user_id == userId && multiset(r)[t] < multiset(db.transactions)[t] ==>
      u.created_at >= t.created_at
  {
    var mine := Seqs.Filter(db.transactions, t => TxOf(t, userId));
    TxOrderIsPreorder();
    var sorted := Seqs.SortBy(mine, TxNewerOrSame);
    PageOfHistory(db.transactions, userId, mine, sorted, limit);
    Seqs.Take(sorted, limit)
  }

  /** The user's newest row heads every non-empty first page of their history. */
  lemma NewestRowIsOnPage(db: Db, userId: Id, row: Transaction, limit: nat)
    requires row in db.transactions && row.user_id == userId && limit > 0
    requires forall t :: t in db.transactions && t.user_id == userId && t != row ==> t.created_at < row.created_at
    ensures row in GetTransactions(db, userId, limit)
    ensures GetTransactions(db, userId, limit)[0] == row
  {
    var page := GetTransactions(db, userId, limit);
    assert Seqs.Count(db.transactions, t => TxOf(t, userId)) > 0 by {
      var i :| 0 <= i < |db.transactions| && db.transactions[i] == row;
      assert TxOf(db.transactions[i], userId);
    }
    var u := page[0];
    assert u in page;
    if u != row {
      assert u in db.transactions;
      assert multiset(page)[row] >= multiset(db.transactions)[row];
    }
    var j :| 0 <= j < |page| && page[j] == row;
    if j > 0 {
      assert TxNewerOrSame(page[0], page[j]);
    }
  }

  lemma PageOfHistory(txs: seq<Transaction>, userId: Id, mine: seq<Transaction>, sorted: seq<Transaction>, limit: nat)
    requires mine == Seqs.Filter(txs, t => TxOf(t, userId))
    requires Seqs.SortedBy(sorted, TxNewerOrSame) && multiset(sorted) == multiset(mine)
    ensures var r := Seqs.Take(sorted, limit);
      && |r| == (if limit <= Seqs.Count(txs, t => TxOf(t, userId)) then limit else Seqs.Count(txs, t => TxOf(t, userId)))
      && (forall t :: t in r ==> t in txs && t.user_id == userId)
      && (forall t :: multiset(r)[t] <= multiset(txs)[t])
      && Seqs.SortedBy(r, TxNewerOrSame)
      && (forall t: Transaction, u :: u in r && t.user_id == userId && multiset(r)[t] < multiset(txs)[t] ==>
            u.created_at >= t.created_at)
  {
    Seqs.FilterLength(txs, t => TxOf(t, userId));
    assert |sorted| == |mine| by { assert |multiset(sorted)| == |multiset(mine)|; }
    Seqs.TakeOfSorted(sorted, limit, TxNewerOrSame);
    PageRows(txs, userId, mine, sorted, limit);
    PageNewest(txs, userId, mine, sorted, limit);
  }

  lemma PageRows(txs: seq<Transaction>, userId: Id, mine: seq<Transaction>, sorted: seq<Transaction>, limit: nat)
    requires mine == Seqs.Filter(txs, t => TxOf(t, userId))
    requires multiset(sorted) == multiset(mine)
    ensures forall t :: t in Seqs.Take(sorted, limit) ==> t in txs && t.user_id == userId
    ensures forall t :: multiset(Seqs.Take(sorted, limit))[t] <= multiset(txs)[t]
  {
    var r := Seqs.Take(sorted, limit);
    Seqs.TakeIsSubMultiset(sorted, limit);
    Seqs.FilterMultiset(txs, t => TxOf(t, userId));
    forall t | t in r ensures t in txs && t.user_id == userId {
      assert multiset(r)[t] > 0;
      assert multiset(mine)[t] > 0;
    }
  }

  lemma PageNewest(txs: seq<Transaction>, userId: Id, mine: seq<Transaction>, sorted: seq<Transaction>, limit: nat)
    requires mine == Seqs.Filter(txs, t => TxOf(t, userId))
    requires Seqs.SortedBy(sorted, TxNewerOrSame) && multiset(sorted) == multiset(mine)
    ensures forall t: Transaction, u ::
      (u in Seqs.Take(sorted, limit) && t.user_id == userId && multiset(Seqs.Take(sorted, limit))[t] < multiset(txs)[t])
      ==> u.created_at >= t.created_at
  {
    var r := Seqs.Take(sorted, limit);
    Seqs.TakeOfSorted(sorted, limit, TxNewerOrSame);
    Seqs.FilterMultiset(txs, t => TxOf(t, userId));
    forall t: Transaction, u | u in r && t.user_id == userId && multiset(r)[t] < multiset(txs)[t]
      ensures u.created_at >= t.created_at
    {
      assert multiset(mine)[t] == multiset(txs)[t];
      assert multiset(r)[t] < multiset(sorted)[t];
      assert TxNewerOrSame(u, t);
    }
  }

  // ------------------------------------------------------------ friendships

  predicate FriendshipListed(f: Friendship, userId: Id)
  {
    (f.user_id == userId || f.friend_id == userId) && f.status == Accepted
  }

  /** Accepted friendships on either side of the user, in table order. */
  function GetFriendships(db: Db, userId: Id): (r: seq<Friendship>)
    ensures forall f :: f in r <==> f in db.friendships && FriendshipListed(f, userId)
    ensures Seqs.IsSubsequence(r, db.friendships)
  {
    Seqs.FilterIsSubsequence(db.friendships, f => FriendshipListed(f, userId));
    Seqs.Filter(db.friendships, f => FriendshipListed(f, userId))
  }

  /** Appends a pending request from `userId` to `friendId`. */
  function SendFriendRequest(db: Db, id: Id, now: Timestamp, userId: Id, friendId: Id): (w: Written<Friendship>)
    ensures w.db == db.(friendships := db.friendships + [w.row])
    ensures w.row.status == Pending
    ensures w.row.user_id == userId && w.row.friend_id == friendId
  {
    var row := Friendship(id, userId, friendId, Pending, now);
    Written(db.(friendships := db.friendships + [row]), row)
  }

  /** A request, being pending, changes nobody's friend list. */
  lemma FriendRequestNotListed(db: Db, id: Id, now: Timestamp, userId: Id, friendId: Id, anyone: Id)
    ensures GetFriendships(SendFriendRequest(db, id, now, userId, friendId).db, anyone) == GetFriendships(db, anyone)
  {
    var w := SendFriendRequest(db, id, now, userId, friendId);
    Seqs.FilterAppend(db.friendships, w.row, f => FriendshipListed(f, anyone));
  }

  // ---------------------------------------------------------- collaborations

  /** Appends a collaborator's position on a goal; unless told otherwise the
      collaborator earns if the goal fails. */
  function CreateGoalCollaboration(db: Db, id: Id, now: Timestamp, goalId: Id, collaboratorId: Id,
                                   stakeAmount: Cents, willEarnIfFails: bool := true): (w: Written<GoalCollaboration>)
    ensures w.db == db.(collaborations := db.collaborations + [w.row])
    ensures w.row.goal_id == goalId && w.row.collaborator_id == collaboratorId
    ensures w.row.stake_amount == stakeAmount && w.row.will_earn_if_fails == willEarnIfFails
  {
    var row := GoalCollaboration(id, goalId, collaboratorId, stakeAmount, willEarnIfFails, now);
    Written(db.(collaborations := db.collaborations + [row]), row)
  }

  /** Left without a stance, a new collaborator bets on failure. */
  lemma CollaborationDefaultsToEarnIfFails(db: Db, id: Id, now: Timestamp, goalId: Id, collaboratorId: Id, stakeAmount: Cents)
    ensures CreateGoalCollaboration(db, id, now, goalId, collaboratorId, stakeAmount).row.will_earn_if_fails
  {
  }

  /** The collaborations on one goal, in table order. */
  function GetGoalCollaborations(db: Db, goalId: Id): (r: seq<GoalCollaboration>)
    ensures forall c :: c in r <==> c in db.collaborations && c.goal_id == goalId
    ensures Seqs.IsSubsequence(r, db.collaborations)
  {
    Seqs.FilterIsSubsequence(db.collaborations, (c: GoalCollaboration) => c.goal_id == goalId);
    Seqs.Filter(db.collaborations, (c: GoalCollaboration) => c.goal_id == goalId)
  }

  /** A new collaboration is among the goal's collaborations. */
  lemma CreatedCollaborationIsListed(db: Db, id: Id, now: Timestamp, goalId: Id, collaboratorId: Id,
                                     stakeAmount: Cents, willEarnIfFails: bool)
    ensures var w := CreateGoalCollaboration(db, id, now, goalId, collaboratorId, stakeAmount, willEarnIfFails);
      w.row in GetGoalCollaborations(w.db, goalId)
  {
    var w := CreateGoalCollaboration(db, id, now, goalId, collaboratorId, stakeAmount, willEarnIfFails);
    assert w.row in w.db.collaborations;
  }

  // ---------------------------------------------------------- verifications

  /** Appends a submitted verification. It starts unapproved and unreviewed. */
  function CreateVerification(db: Db, id: Id, now: Timestamp, goalId: Id, userId: Id,
                              verificationType: VerificationType, verificationData: Payload,
                              verifiedValue: string): (w: Written<Verification>)
    ensures w.db == db.(verifications := db.verifications + [w.row])
    ensures !w.row.is_approved && w.row.reviewed_by.None? && w.row.reviewed_at.None?
    ensures w.row.goal_id == goalId && w.row.user_id == userId
    ensures w.row.verification_type == verificationType
    ensures w.row.verification_data == Some(verificationData) && w.row.verified_value == Some(verifiedValue)
  {
    var row := Verification(id, goalId, userId, verificationType, Some(verificationData),
      Some(verifiedValue), false, None, None, now);
    Written(db.(verifications := db.verifications + [row]), row)
  }
}

=== FILE: ledger.dfy ===
/** Staking money on a goal: the one operation that moves a user's money.
    It reads the profile, refuses a stake larger than the wallet, writes the
    reduced balance, and then, as a separate write, appends a ledger row.
    Any of the three store calls can fail independently. */
module Ledger {
  import opened Wrappers
  import opened Schema
  import opened Database
  import Seqs

  datatype StakeError =
    | ProfileNotFound          // no profile row for the user
    | InsufficientFunds        // the wallet holds less than the stake
    | ReadFailed               // the profile query itself failed
    | BalanceWriteFailed       // the balance update failed; nothing was written
    | TransactionInsertFailed  // the ledger insert failed after the balance was written
    | InvalidAmount            // only the corrected stake: the amount is not positive

  /** Which of the three store calls fail on this run. */
  datatype StoreFaults = StoreFaults(readFails: bool, writeFails: bool, insertFails: bool)

  const NoFaults := StoreFaults(false, false, false)

  /** The tables after the call and what the caller sees. */
  datatype StakeOutcome = StakeOutcome(db: Db, result: Result<(), StakeError>)

  /** `t` is the ledger row of a stake of `amount` on `goalId` by `userId`
      taken from a wallet holding `before`. */
  predicate IsStakeRow(t: Transaction, userId: Id, goalId: Id, amount: Cents, before: Cents)
  {
    && t.user_id == userId
    && t.amount == -amount
    && t.transaction_type == Stake
    && t.related_entity_type == Some("goal")
    && t.related_entity_id == Some(goalId)
    && t.description == Some(StakedOnGoal(amount))
    && t.balance_before == Some(before)
    && t.balance_after == Some(before - amount)
  }

  function StakeRow(userId: Id, goalId: Id, amount: Cents, before: Cents, txId: Id, now: Timestamp): (t: Transaction)
    ensures IsStakeRow(t, userId, goalId, amount, before)
    ensures BalancesAgree(t)
    ensures t.id == txId && t.created_at == now
  {
    Transaction(txId, userId, -amount, Stake, Some("goal"), Some(goalId),
      Some(StakedOnGoal(amount)), Some(before), Some(before - amount), now)
  }

  /** The wallet of `userId` holds `balance`; nothing else about the profiles differs. */
  function WithBalance(db: Db, userId: Id, balance: Cents): Db
    requires userId in db.profiles
  {
    db.(profiles := db.profiles[userId := db.profiles[userId].(wallet_balance := balance)])
  }

  /** The stake as the code performs it. A missing profile, or a query that
      cannot find exactly one profile row, is reported as `ProfileNotFound`.
      The amount is not checked: a negative amount passes the balance check
      and credits the wallet. When the ledger insert fails the wallet has
      already been debited and stays debited. */
  function StakeOnGoal(db: Db, userId: Id, goalId: Id, amount: Cents, txId: Id, now: Timestamp,
                       faults: StoreFaults): (o: StakeOutcome)
    ensures faults.readFails ==> o == StakeOutcome(db, Err(ReadFailed))
    ensures o.result == Err(ProfileNotFound) <==> !faults.readFails && userId !in db.profiles
    ensures o.result == Err(InsufficientFunds) <==>
      !faults.readFails && userId in db.profiles && db.profiles[userId].wallet_balance < amount
    ensures o.result.Ok? <==>
      faults == NoFaults && userId in db.profiles && db.profiles[userId].wallet_balance >= amount
    ensures !faults.readFails && userId in db.profiles && db.profiles[userId].wallet_balance >= amount ==>
      && (faults.writeFails ==> o == StakeOutcome(db, Err(BalanceWriteFailed)))
      && (!faults.writeFails && faults.insertFails ==> o.result == Err(TransactionInsertFailed))
    ensures o.result.Err? && o.result.error != TransactionInsertFailed ==> o.db == db
    ensures o.result.Ok? || o.result == Err(TransactionInsertFailed) ==>
      && userId in db.profiles
      && db.profiles[userId].wallet_balance >= amount
      && o.db.(transactions := db.transactions) == WithBalance(db, userId, db.profiles[userId].wallet_balance - amount)
    ensures o.result == Err(TransactionInsertFailed) ==> o.db.transactions == db.transactions
    ensures o.result.Ok? ==>
      && |o.db.transactions| == |db.transactions| + 1
      && o.db.transactions[..|db.transactions|] == db.transactions
      && IsStakeRow(o.db.transactions[|db.transactions|], userId, goalId, amount, db.profiles[userId].wallet_balance)
      && o.db.transactions[|db.transactions|].id == txId
      && o.db.transactions[|db.transactions|].created_at == now
      && o.db.transactions[|db.transactions|].balance_after == Some(o.db.profiles[userId].wallet_balance)
  {
    if faults.readFails then StakeOutcome(db, Err(ReadFailed))
    else match GetProfile(db, userId)
      case Err(_) => StakeOutcome(db, Err(ProfileNotFound))
      case Ok(profile) =>
        if profile.wallet_balance < amount then StakeOutcome(db, Err(InsufficientFunds))
        else
          var newBalance := profile.wallet_balance - amount;
          if faults.writeFails then StakeOutcome(db, Err(BalanceWriteFailed))
          else
            var written := UpdateProfile(db, userId, SetWalletBalance(newBalance)).value.db;
            assert written == WithBalance(db, userId, newBalance);
            if faults.insertFails then StakeOutcome(written, Err(TransactionInsertFailed))
            else
              var row := StakeRow(userId, goalId, amount, profile.wallet_balance, txId, now);
              StakeOutcome(written.(transactions := written.transactions + [row]), Ok(()))
  }

  // ------------------------------------------------------- per-row balances

  predicate AllBalancesAgree(txs: seq<Transaction>)
  {
    forall i :: 0 <= i < |txs| ==> BalancesAgree(txs[i])
  }

  /** Whatever the outcome, a stake keeps every ledger row's recorded
      before/after balances consistent with its amount. */
  lemma StakeKeepsBalancesAgree(db: Db, userId: Id, goalId: Id, amount: Cents, txId: Id, now: Timestamp, faults: StoreFaults)
    requires AllBalancesAgree(db.transactions)
    ensures AllBalancesAgree(StakeOnGoal(db, userId, goalId, amount, txId, now, faults).db.transactions)
  {
    var o := StakeOnGoal(db, userId, goalId, amount, txId, now, faults);
    if o.result.Ok? {
      var n := |db.transactions|;
      forall i | 0 <= i < |o.db.transactions| ensures BalancesAgree(o.db.transactions[i]) {
        if i < n {
          assert o.db.transactions[i] == o.db.transactions[..n][i];
        }
      }
    }
  }

  /** Staking the whole balance is accepted and empties the wallet. */
  lemma StakeWholeBalance(db: Db, userId: Id, goalId: Id, txId: Id, now: Timestamp)
    requires userId in db.profiles
    ensures var o := StakeOnGoal(db, userId, goalId, db.profiles[userId].wallet_balance, txId, now, NoFaults);
      o.result.Ok? && o.db.profiles[userId].wallet_balance == 0
  {
  }

  /** A stake never takes a wallet below zero. */
  lemma StakeKeepsWalletNonNegative(db: Db, userId: Id, goalId: Id, amount: Cents, txId: Id, now: Timestamp, faults: StoreFaults)
    requires userId in db.profiles && db.profiles[userId].wallet_balance >= 0
    ensures StakeOnGoal(db, userId, goalId, amount, txId, now, faults).db.profiles[userId].wallet_balance >= 0
  {
  }

  // --------------------------------------------------------- reconciliation

  /** Sum of the amounts of `userId`'s ledger rows. */
  function Net(txs: seq<Transaction>, userId: Id): Cents
    decreases |txs|
  {
    if |txs| == 0 then 0
    else Net(txs[..|txs| - 1], userId) + (if txs[|txs| - 1].user_id == userId then txs[|txs| - 1].amount else 0)
  }

  /** Every wallet equals its opening balance plus the amounts of its ledger
      rows: the ledger accounts for every change of balance. */
  ghost predicate Reconciled(db: Db, opening: map<Id, Cents>)
  {
    forall u :: u in db.profiles ==> u in opening && db.profiles[u].wallet_balance == opening[u] + Net(db.transactions, u)
  }

  lemma NetAppend(txs: seq<Transaction>, t: Transaction, userId: Id)
    ensures Net(txs + [t], userId) == Net(txs, userId) + (if t.user_id == userId then t.amount else 0)
  {
    assert (txs + [t])[..|txs|] == txs;
  }

  /** A completed stake keeps the ledger reconciled. */
  lemma StakeKeepsReconciled(db: Db, userId: Id, goalId: Id, amount: Cents, txId: Id, now: Timestamp,
                             faults: StoreFaults, opening: map<Id, Cents>)
    requires Reconciled(db, opening)
    requires StakeOnGoal(db, userId, goalId, amount, txId, now, faults).result.Ok?
    ensures Reconciled(StakeOnGoal(db, userId, goalId, amount, txId, now, faults).db, opening)
  {
    var o := StakeOnGoal(db, userId, goalId, amount, txId, now, faults);
    var n := |db.transactions|;
    assert o.db.transactions == db.transactions + [o.db.transactions[n]];
    forall u | u in o.db.profiles
      ensures u in opening && o.db.profiles[u].wallet_balance == opening[u] + Net(o.db.transactions, u)
    {
      NetAppend(db.transactions, o.db.transactions[n], u);
    }
  }

  /** A failed ledger insert leaves a wallet change the ledger does not
      account for: from a reconciled state, any non-zero stake whose insert
      fails ends unreconciled. */
  lemma StakeInsertFailureUnreconciles(db: Db, userId: Id, goalId: Id, amount: Cents, txId: Id, now: Timestamp,
                                       opening: map<Id, Cents>)
    requires Reconciled(db, opening)
    requires amount != 0
    requires userId in db.profiles && db.profiles[userId].wallet_balance >= amount
    ensures StakeOnGoal(db, userId, goalId, amount, txId, now, StoreFaults(false, false, true)).result
      == Err(TransactionInsertFailed)
    ensures !Reconciled(StakeOnGoal(db, userId, goalId, amount, txId, now, StoreFaults(false, false, true)).db, opening)
  {
    var o := StakeOnGoal(db, userId, goalId, amount, txId, now, StoreFaults(false, false, true));
    assert o.db.profiles[userId].wallet_balance == db.profiles[userId].wallet_balance - amount;
  }

  /** A negative amount passes the balance check and credits the wallet. */
  lemma NegativeStakeCredits(db: Db, userId: Id, goalId: Id, amount: Cents, txId: Id, now: Timestamp)
    requires userId in db.profiles && db.profiles[userId].wallet_balance >= 0
    requires amount < 0
    ensures var o := StakeOnGoal(db, userId, goalId, amount, txId, now, NoFaults);
      o.result.Ok? && o.db.profiles[userId].wallet_balance > db.profiles[userId].wallet_balance
  {
  }

  // ----------------------------------------------------- the corrected stake

  /** The stake as its comments intend it: a stake must be positive, and the
      balance write and the ledger insert take effect together or not at all. */
  function StakeOnGoalAtomic(db: Db, userId: Id, goalId: Id, amount: Cents, txId: Id, now: Timestamp,
                             faults: StoreFaults): (o: StakeOutcome)
    ensures o.result.Err? ==> o.db == db
    ensures o.result == Err(InvalidAmount) <==> amount <= 0
    ensures o.result.Ok? <==>
      amount > 0 && faults == NoFaults && userId in db.profiles && db.profiles[userId].wallet_balance >= amount
    ensures o.result.Ok? ==>
      userId in o.db.profiles && o.db.profiles[userId].wallet_balance < db.profiles[userId].wallet_balance
    ensures amount > 0 ==> o.result == StakeOnGoal(db, userId, goalId, amount, txId, now, faults).result
    ensures o.result.Ok? ==> o == StakeOnGoal(db, userId, goalId, amount, txId, now, faults)
  {
    if amount <= 0 then StakeOutcome(db, Err(InvalidAmount))
    else
      var o := StakeOnGoal(db, userId, goalId, amount, txId, now, faults);
      if o.result.Ok? then o else StakeOutcome(db, o.result)
  }

  /** The corrected stake keeps the ledger reconciled whatever fails. */
  lemma AtomicStakeKeepsReconciled(db: Db, userId: Id, goalId: Id, amount: Cents, txId: Id, now: Timestamp,
                                   faults: StoreFaults, opening: map<Id, Cents>)
    requires Reconciled(db, opening)
    ensures Reconciled(StakeOnGoalAtomic(db, userId, goalId, amount, txId, now, faults).db, opening)
  {
    if StakeOnGoalAtomic(db, userId, goalId, amount, txId, now, faults).result.Ok? {
      StakeKeepsReconciled(db, userId, goalId, amount, txId, now, faults, opening);
    }
  }

  // ------------------------------------------------------------- history

  /** A stake recorded later than every earlier row of the user's heads the
      first page of the user's history. */
  lemma StakeHeadsHistory(db: Db, userId: Id, goalId: Id, amount: Cents, txId: Id, now: Timestamp, limit: nat)
    requires StakeOnGoal(db, userId, goalId, amount, txId, now, NoFaults).result.Ok?
    requires forall t :: t in db.transactions && t.user_id == userId ==> t.created_at < now
    requires limit > 0
    ensures var o := StakeOnGoal(db, userId, goalId, amount, txId, now, NoFaults);
      && o.db.transactions[|db.transactions|] in GetTransactions(o.db, userId, limit)
      && GetTransactions(o.db, userId, limit)[0] == o.db.transactions[|db.transactions|]
  {
    var o := StakeOnGoal(db, userId, goalId, amount, txId, now, NoFaults);
    var row := o.db.transactions[|db.transactions|];
    assert o.db.transactions == db.transactions + [row];
    assert row.created_at == now && row.user_id == userId;
    NewestRowIsOnPage(o.db, userId, row, limit);
  }
}

=== FILE: locked_apps.dfy ===
/** The locked-apps screen's list and form logic: cleaning and ordering the
    device's installed apps, the case-insensitive search over them, the
    add-app form with its validation, picking an app from the library, and
    the lock toggle's patch. Network calls appear as the requests the screen
    makes and the outcomes it is told. */
module LockedApps {
  import opened Wrappers
  import opened Text
  import Seqs
  import Schema

  // ----------------------------------------------------- installed apps

  /** An entry reported by the device; either name may be missing. */
  datatype InstalledApp = InstalledApp(appName: Option<string>, packageName: Option<string>)

  /** JavaScript truthiness of an optional string: present and non-empty. */
  predicate Truthy(s: Option<string>)
  {
    s.Some? && |s.value| > 0
  }

  /** A user app: both its name and its package are given. */
  predicate IsUserApp(app: InstalledApp)
  {
    Truthy(app.appName) && Truthy(app.packageName)
  }

  function NameOf(app: InstalledApp): string
  {
    if app.appName.Some? then app.appName.value else ""
  }

  /** Ordering by display name; `localeCompare` is taken as code-point order. */
  predicate NameLe(a: InstalledApp, b: InstalledApp)
  {
    LexLe(NameOf(a), NameOf(b))
  }

  lemma NameOrderIsPreorder()
    ensures Seqs.TotalPreorder(NameLe)
  {
    LexLeTotalPreorder();
  }

  /** The list `loadInstalledApps` keeps: the user apps, ordered by name. */
  function CleanInstalledApps(apps: seq<InstalledApp>): (r: seq<InstalledApp>)
    ensures forall a :: a in r <==> a in apps && IsUserApp(a)
    ensures forall a :: multiset(r)[a] == if IsUserApp(a) then multiset(apps)[a] else 0
    ensures Seqs.SortedBy(r, NameLe)
  {
    var kept := Seqs.Filter(apps, IsUserApp);
    Seqs.FilterMultiset(apps, IsUserApp);
    NameOrderIsPreorder();
    Seqs.SortBy(kept, NameLe)
  }

  // ------------------------------------------------------------- search

  /** An app matches when its lowercased name or package contains the
      lowercased query; a missing name or package does not match. */
  predicate Matches(app: InstalledApp, query: string)
  {
    || (app.appName.Some? && Contains(Lower(app.appName.value), Lower(query)))
    || (app.packageName.Some? && Contains(Lower(app.packageName.value), Lower(query)))
  }

  /** `filteredApps`: the installed apps the search query matches, in list order. */
  function FilteredApps(installed: seq<InstalledApp>, query: string): (r: seq<InstalledApp>)
    ensures Seqs.IsSubsequence(r, installed)
    ensures forall a :: a in r <==> a in installed && Matches(a, query)
    ensures forall a :: multiset(r)[a] == if Matches(a, query) then multiset(installed)[a] else 0
  {
    Seqs.FilterMultiset(installed, a => Matches(a, query));
    Seqs.FilterIsSubsequence(installed, a => Matches(a, query));
    Seqs.Filter(installed, a => Matches(a, query))
  }

  /** An empty query shows every app that has a name or a package. */
  lemma {:induction false} EmptyQueryKeepsAll(installed: seq<InstalledApp>)
    requires forall i :: 0 <= i < |installed| ==> installed[i].appName.Some? || installed[i].packageName.Some?
    ensures FilteredApps(installed, "") == installed
  {
    forall i | 0 <= i < |installed|
      ensures Matches(installed[i], "")
    {
      var app := installed[i];
      if app.appName.Some? {
        ContainsEmpty(Lower(app.appName.value));
      } else {
        ContainsEmpty(Lower(app.packageName.value));
      }
    }
    Seqs.FilterKeepsAll(installed, a => Matches(a, ""));
  }

  /** With no search typed, the library shows the whole cleaned list. */
  lemma CleanedListShownUnfiltered(apps: seq<InstalledApp>)
    ensures FilteredApps(CleanInstalledApps(apps), "") == CleanInstalledApps(apps)
  {
    var r := CleanInstalledApps(apps);
    assert forall i :: 0 <= i < |r| ==> r[i] in r && IsUserApp(r[i]);
    EmptyQueryKeepsAll(r);
  }

  /** The search ignores the case of the query. */
  lemma SearchIgnoresQueryCase(installed: seq<InstalledApp>, query: string)
    ensures FilteredApps(installed, Lower(query)) == FilteredApps(installed, query)
  {
    LowerIdempotent(query);
    Seqs.FilterCongruent(installed, a => Matches(a, Lower(query)), a => Matches(a, query));
  }

  /** Typing more of a query never brings back an app it had ruled out. */
  lemma LongerQueryNarrows(installed: seq<InstalledApp>, query: string, more: string)
    ensures Seqs.IsSubsequence(FilteredApps(installed, query + more), FilteredApps(installed, query))
  {
    LowerAppend(query, more);
    forall a | Matches(a, query + more)
      ensures Matches(a, query)
    {
      if a.appName.Some? && Contains(Lower(a.appName.value), Lower(query + more)) {
        ContainsPrefixOfNeedle(Lower(a.appName.value), Lower(query), Lower(more));
      } else {
        ContainsPrefixOfNeedle(Lower(a.packageName.value), Lower(query), Lower(more));
      }
    }
    Seqs.FilterMonotone(installed, a => Matches(a, query + more), a => Matches(a, query));
  }

  // --------------------------------------------------------- the screen

  /** The screen's form and library state. The list of locked apps and the
      loading flags are not part of this model. */
  datatype Screen = Screen(
    showAddForm: bool,
    showAppLibrary: bool,
    installedApps: seq<InstalledApp>,
    appName: string,
    appPackage: string,
    penaltyAmount: string,
    searchQuery: string)

  /** The screen as it opens: no form, no library, nothing typed, penalty "0". */
  function InitialScreen(): Screen
  {
    Screen(false, false, [], "", "", "0", "")
  }

  /** The add form's Cancel button: the form closes and is emptied, the
      penalty back to its initial "0"; the library is left as it was. */
  function CancelAdd(s: Screen): (r: Screen)
    ensures r.appName == "" && r.appPackage == "" && r.penaltyAmount == "0" && !r.showAddForm
    ensures r.showAppLibrary == s.showAppLibrary && r.installedApps == s.installedApps
    ensures r.searchQuery == s.searchQuery
  {
    s.(showAddForm := false, appName := "", appPackage := "", penaltyAmount := "0")
  }

  /** Cancel puts the add form back exactly as the screen first showed it. */
  lemma CancelRestoresInitialForm(s: Screen)
    ensures var r := CancelAdd(s);
      && r.showAddForm == InitialScreen().showAddForm
      && r.appName == InitialScreen().appName
      && r.appPackage == InitialScreen().appPackage
      && r.penaltyAmount == InitialScreen().penaltyAmount
  {
  }

  /** The request to create a locked app. */
  datatype CreateLockedApp = CreateLockedApp(
    userId: Schema.Id,
    appName: string,
    packageName: string,
    penalty: Schema.Cents)

  /** What the screen tells the user after Add. */
  datatype AddAlert = MissingFields | NotAuthenticated | AppAdded | AddFailed

  datatype AddResult = AddResult(screen: Screen, call: Option<CreateLockedApp>, alert: AddAlert)

  /** `handleAddApp`. A blank name or package is refused before anything
      else; without a session nothing is sent; otherwise the trimmed name
      and package are sent with the penalty `parsePenalty` reads from the
      form, and only a successful create resets the form, as Cancel would. */
  function HandleAddApp(
    s: Screen,
    session: Option<Schema.Id>,
    parsePenalty: string -> Schema.Cents,
    createSucceeds: bool): (r: AddResult)
    ensures r.alert == MissingFields <==> Trim(s.appName) == [] || Trim(s.appPackage) == []
    ensures r.alert == NotAuthenticated <==> r.alert != MissingFields && session.None?
    ensures r.call.Some? <==> r.alert == AppAdded || r.alert == AddFailed
    ensures r.call.Some? ==> r.call.value == CreateLockedApp(session.value, Trim(s.appName), Trim(s.appPackage), parsePenalty(s.penaltyAmount))
    ensures r.call.Some? ==> r.call.value.appName != [] && r.call.value.packageName != []
    ensures r.alert == AppAdded <==> r.call.Some? && createSucceeds
    ensures r.alert == AppAdded ==> r.screen == CancelAdd(s)
    ensures r.alert != AppAdded ==> r.screen == s
  {
    var name := Trim(s.appName);
    var package := Trim(s.appPackage);
    if name == [] || package == [] then AddResult(s, None, MissingFields)
    else match session
      case None => AddResult(s, None, NotAuthenticated)
      case Some(user) =>
        var call := CreateLockedApp(user, name, package, parsePenalty(s.penaltyAmount));
        if createSucceeds then AddResult(CancelAdd(s), Some(call), AppAdded)
        else AddResult(s, Some(call), AddFailed)
  }

  /** The name and package sent are already trimmed: trimming them again
      would change nothing. */
  lemma AddSendsTrimmedValues(s: Screen, session: Option<Schema.Id>, parsePenalty: string -> Schema.Cents, createSucceeds: bool)
    ensures var r := HandleAddApp(s, session, parsePenalty, createSucceeds);
      r.call.Some? ==> Trim(r.call.value.appName) == r.call.value.appName && Trim(r.call.value.packageName) == r.call.value.packageName
  {
    TrimIdempotent(s.appName);
    TrimIdempotent(s.appPackage);
  }

  /** Pressing Add again right after a successful add sends nothing: the
      emptied form is refused. */
  lemma NoSecondAddAfterSuccess(s: Screen, session: Option<Schema.Id>, parsePenalty: string -> Schema.Cents, ok1: bool, ok2: bool)
    requires HandleAddApp(s, session, parsePenalty, ok1).alert == AppAdded
    ensures var again := HandleAddApp(HandleAddApp(s, session, parsePenalty, ok1).screen, session, parsePenalty, ok2);
      again.call.None? && again.alert == MissingFields
  {
    var blank: string := "";
    assert AllSpace(blank);
  }

  /** `loadInstalledApps` once the device has listed its apps: the cleaned
      list is shown in the library. */
  function LoadInstalledApps(s: Screen, deviceApps: seq<InstalledApp>): (r: Screen)
    ensures r.showAppLibrary
    ensures forall a :: a in r.installedApps <==> a in deviceApps && IsUserApp(a)
    ensures Seqs.SortedBy(r.installedApps, NameLe)
    ensures r == s.(installedApps := r.installedApps, showAppLibrary := true)
    ensures r.installedApps == CleanInstalledApps(deviceApps)
  {
    s.(installedApps := CleanInstalledApps(deviceApps), showAppLibrary := true)
  }

  /** `handleSelectApp`: the picked app fills the form, the library closes
      with its search cleared, and the add form opens. */
  function SelectApp(s: Screen, app: InstalledApp): (r: Screen)
    ensures r.appName == (if app.appName.Some? then app.appName.value else "")
    ensures r.appPackage == (if app.packageName.Some? then app.packageName.value else "")
    ensures !r.showAppLibrary && r.searchQuery == "" && r.showAddForm
    ensures r.penaltyAmount == s.penaltyAmount && r.installedApps == s.installedApps
  {
    s.(appName := NameOf(app),
       appPackage := if app.packageName.Some? then app.packageName.value else "",
       showAppLibrary := false,
       searchQuery := "",
       showAddForm := true)
  }

  /** Closing the library, by its button or by dismissing it, clears the search. */
  function CloseLibrary(s: Screen): (r: Screen)
    ensures !r.showAppLibrary && r.searchQuery == ""
    ensures r.installedApps == s.installedApps && r.showAddForm == s.showAddForm
    ensures r.appName == s.appName && r.appPackage == s.appPackage && r.penaltyAmount == s.penaltyAmount
  {
    s.(showAppLibrary := false, searchQuery := "")
  }

  /** Picking an app from the cleaned library yields a form Add accepts
      unless the device's names are blank. */
  lemma PickedUserAppFillsForm(s: Screen, app: InstalledApp)
    requires IsUserApp(app)
    ensures SelectApp(s, app).appName == app.appName.value
    ensures SelectApp(s, app).appPackage == app.packageName.value
    ensures |SelectApp(s, app).appName| > 0 && |SelectApp(s, app).appPackage| > 0
  {
  }

  /** However the library was left, by closing it or by picking an app, it
      shows the whole loaded list the next time: the search is cleared. */
  lemma {:induction false} LibraryReopensUnfiltered(s: Screen, deviceApps: seq<InstalledApp>, app: InstalledApp)
    ensures var loaded := LoadInstalledApps(s, deviceApps);
      && FilteredApps(CloseLibrary(loaded).installedApps, CloseLibrary(loaded).searchQuery) == loaded.installedApps
      && FilteredApps(SelectApp(loaded, app).installedApps, SelectApp(loaded, app).searchQuery) == loaded.installedApps
  {
    CleanedListShownUnfiltered(deviceApps);
  }

  // --------------------------------------------------------- lock toggle

  /** A locked app as the screen reads it. */
  datatype LockedApp = LockedApp(
    id: Schema.Id,
    app_name: string,
    app_package: string,
    is_locked: bool,
    penalty_amount: Schema.Cents)

  /** A partial update of a locked app: only the given fields change. */
  datatype LockedAppPatch = LockedAppPatch(
    app_name: Option<string>,
    app_package: Option<string>,
    is_locked: Option<bool>,
    penalty_amount: Option<Schema.Cents>)

  function ApplyLockedAppPatch(app: LockedApp, p: LockedAppPatch): (r: LockedApp)
    ensures r.id == app.id
    ensures Schema.TakenOrKept(p.app_name, app.app_name, r.app_name)
    ensures Schema.TakenOrKept(p.app_package, app.app_package, r.app_package)
    ensures Schema.TakenOrKept(p.is_locked, app.is_locked, r.is_locked)
    ensures Schema.TakenOrKept(p.penalty_amount, app.penalty_amount, r.penalty_amount)
    ensures p == LockedAppPatch(None, None, None, None) ==> r == app
  {
    LockedApp(
      app.id,
      if p.app_name.Some? then p.app_name.value else app.app_name,
      if p.app_package.Some? then p.app_package.value else app.app_package,
      if p.is_locked.Some? then p.is_locked.value else app.is_locked,
      if p.penalty_amount.Some? then p.penalty_amount.value else app.penalty_amount)
  }

  /** `handleToggleLock`: the patch names only `is_locked`, set to the
      opposite of the app's current value. */
  function TogglePatch(app: LockedApp): (p: LockedAppPatch)
    ensures p.is_locked == Some(!app.is_locked)
    ensures p.app_name.None? && p.app_package.None? && p.penalty_amount.None?
  {
    LockedAppPatch(None, None, Some(!app.is_locked), None)
  }

  /** Toggling flips the lock and nothing else; toggling twice restores the app. */
  lemma ToggleFlipsOnlyLock(app: LockedApp)
    ensures ApplyLockedAppPatch(app, TogglePatch(app)) == app.(is_locked := !app.is_locked)
    ensures var once := ApplyLockedAppPatch(app, TogglePatch(app));
      ApplyLockedAppPatch(once, TogglePatch(once)) == app
  {
  }
}

=== FILE: schema.dfy ===
/** The rows of the application's tables and the shapes callers may use to
    create or change them. Identifiers and free text are strings; money is an
    integer number of cents; instants are integers on one clock; an alarm's
    time of day is a number of seconds after midnight. */
module Schema {
  import opened Wrappers

  type Id = string
  type Cents = int
  type Timestamp = int

  /** An arbitrary JSON object column, keyed by property name. */
  type Payload = map<string, string>

  datatype GoalType = CanvasGrade | HomeworkAssignment | SatScore | McatScore | CollegeBoardExam | Custom

  /** A goal is exactly one of these. */
  datatype GoalStatus = Active | Completed | Failed | Cancelled

  /** A ledger row's kind is exactly one of these. */
  datatype TransactionType = Stake | Penalty | Reward | Refund | Payout

  datatype VerificationType = Photo | Document | Api | Manual

  datatype FriendshipStatus = Pending | Accepted | Blocked

  /** The text the database stores for a goal status. */
  function GoalStatusName(s: GoalStatus): (name: string)
    ensures name != ""
  {
    match s
    case Active => "active"
    case Completed => "completed"
    case Failed => "failed"
    case Cancelled => "cancelled"
  }

  /** Reading a status back from its stored text; every other text is no status. */
  function ParseGoalStatus(name: string): (r: Option<GoalStatus>)
    ensures r.Some? ==> GoalStatusName(r.value) == name
  {
    if name == "active" then Some(Active)
    else if name == "completed" then Some(Completed)
    else if name == "failed" then Some(Failed)
    else if name == "cancelled" then Some(Cancelled)
    else None
  }

  /** Each status has its own stored text, and the text reads back as the status. */
  lemma GoalStatusNameRoundTrip(s: GoalStatus)
    ensures ParseGoalStatus(GoalStatusName(s)) == Some(s)
  {
  }

  /** The text the database stores for a transaction type. */
  function TransactionTypeName(t: TransactionType): (name: string)
    ensures name != ""
  {
    match t
    case Stake => "stake"
    case Penalty => "penalty"
    case Reward => "reward"
    case Refund => "refund"
    case Payout => "payout"
  }

  function ParseTransactionType(name: string): (r: Option<TransactionType>)
    ensures r.Some? ==> TransactionTypeName(r.value) == name
  {
    if name == "stake" then Some(Stake)
    else if name == "penalty" then Some(Penalty)
    else if name == "reward" then Some(Reward)
    else if name == "refund" then Some(Refund)
    else if name == "payout" then Some(Payout)
    else None
  }

  lemma TransactionTypeNameRoundTrip(t: TransactionType)
    ensures ParseTransactionType(TransactionTypeName(t)) == Some(t)
  {
  }

  datatype Profile = Profile(
    id: Id,
    username: Option<string>,
    full_name: Option<string>,
    email: Option<string>,
    wallet_balance: Cents,
    total_earned: Cents,
    total_lost: Cents,
    created_at: Timestamp,
    updated_at: Timestamp)

  datatype Goal = Goal(
    id: Id,
    user_id: Id,
    title: string,
    description: Option<string>,
    goal_type: GoalType,
    target_value: string,
    current_value: Option<string>,
    deadline: Timestamp,
    stake_amount: Cents,
    status: GoalStatus,
    verification_method: Option<string>,
    verification_data: Option<Payload>,
    created_at: Timestamp,
    updated_at: Timestamp)

  datatype Friendship = Friendship(
    id: Id,
    user_id: Id,
    friend_id: Id,
    status: FriendshipStatus,
    created_at: Timestamp)

  datatype GoalCollaboration = GoalCollaboration(
    id: Id,
    goal_id: Id,
    collaborator_id: Id,
    stake_amount: Cents,
    will_earn_if_fails: bool,
    created_at: Timestamp)

  datatype AlarmClock = AlarmClock(
    id: Id,
    user_id: Id,
    goal_id: Option<Id>,
    title: string,
    alarm_time: nat,
    timezone: string,
    code: string,
    stake_amount: Cents,
    is_active: bool,
    last_triggered: Option<Timestamp>,
    created_at: Timestamp,
    updated_at: Timestamp)

  datatype AlarmLog = AlarmLog(
    id: Id,
    alarm_id: Id,
    user_id: Id,
    entered_at: Option<Timestamp>,
    code_entered: Option<string>,
    was_successful: bool,
    penalty_applied: Cents,
    created_at: Timestamp)

  datatype Verification = Verification(
    id: Id,
    goal_id: Id,
    user_id: Id,
    verification_type: VerificationType,
    verification_data: Option<Payload>,
    verified_value: Option<string>,
    is_approved: bool,
    reviewed_by: Option<Id>,
    reviewed_at: Option<Timestamp>,
    created_at: Timestamp)

  datatype Task = Task(
    id: Id,
    user_id: Id,
    goal_id: Option<Id>,
    title: string,
    description: Option<string>,
    reward_amount: Cents,
    is_completed: bool,
    completed_at: Option<Timestamp>,
    due_date: Option<Timestamp>,
    created_at: Timestamp,
    updated_at: Timestamp)

  /** The description column of a ledger row: either the text a stake writes,
      kept as the amount it mentions, or any other text. */
  datatype Description = StakedOnGoal(amount: Cents) | Note(text: string)

  datatype Transaction = Transaction(
    id: Id,
    user_id: Id,
    amount: Cents,
    transaction_type: TransactionType,
    related_entity_type: Option<string>,
    related_entity_id: Option<Id>,
    description: Option<Description>,
    balance_before: Option<Cents>,
    balance_after: Option<Cents>,
    created_at: Timestamp)

  /** Where a row records both balances, they differ by exactly its amount.
      Rows without both balances say nothing. */
  predicate BalancesAgree(t: Transaction)
  {
    t.balance_before.Some? && t.balance_after.Some? ==>
      t.balance_after.value == t.balance_before.value + t.amount
  }

  // ------------------------------------------------------------ goal shapes

  /** A goal as a caller creates it: every column except the ones the store
      assigns (`id`, `created_at`, `updated_at`). */
  datatype GoalInsert = GoalInsert(
    user_id: Id,
    title: string,
    description: Option<string>,
    goal_type: GoalType,
    target_value: string,
    current_value: Option<string>,
    deadline: Timestamp,
    stake_amount: Cents,
    status: GoalStatus,
    verification_method: Option<string>,
    verification_data: Option<Payload>)

  /** The stored goal for an insert, with the store-assigned columns. */
  function GoalFromInsert(g: GoalInsert, id: Id, now: Timestamp): (r: Goal)
    ensures r.id == id && r.created_at == now && r.updated_at == now
    ensures GoalToInsert(r) == g
  {
    Goal(id, g.user_id, g.title, g.description, g.goal_type, g.target_value,
      g.current_value, g.deadline, g.stake_amount, g.status,
      g.verification_method, g.verification_data, now, now)
  }

  /** The caller-supplied part of a stored goal. */
  function GoalToInsert(g: Goal): GoalInsert
  {
    GoalInsert(g.user_id, g.title, g.description, g.goal_type, g.target_value,
      g.current_value, g.deadline, g.stake_amount, g.status,
      g.verification_method, g.verification_data)
  }

  /** A change to a goal: any subset of the columns other than `id`,
      `user_id`, `created_at` and `updated_at`. For a nullable column the
      outer `Option` says whether it is changed, the inner one is the new value. */
  datatype GoalUpdate = GoalUpdate(
    title: Option<string>,
    description: Option<Option<string>>,
    goal_type: Option<GoalType>,
    target_value: Option<string>,
    current_value: Option<Option<string>>,
    deadline: Option<Timestamp>,
    stake_amount: Option<Cents>,
    status: Option<GoalStatus>,
    verification_method: Option<Option<string>>,
    verification_data: Option<Option<Payload>>)

  const NoGoalChange := GoalUpdate(None, None, None, None, None, None, None, None, None, None)

  function Pick<T>(change: Option<T>, current: T): T
  {
    if change.Some? then change.value else current
  }

  /** A column under a partial update: it takes the new value when one is
      given and keeps the old one when none is. */
  predicate TakenOrKept<T(==)>(change: Option<T>, before: T, after: T)
  {
    (change.Some? ==> after == change.value) && (change.None? ==> after == before)
  }

  /** The goal after an update. The identity, owner and timestamps are beyond
      any update's reach; every other column takes the new value where one is
      given and keeps its value otherwise. */
  function ApplyGoalUpdate(g: Goal, u: GoalUpdate): (r: Goal)
    ensures r.id == g.id && r.user_id == g.user_id
    ensures r.created_at == g.created_at && r.updated_at == g.updated_at
    ensures TakenOrKept(u.title, g.title, r.title)
    ensures TakenOrKept(u.description, g.description, r.description)
    ensures TakenOrKept(u.goal_type, g.goal_type, r.goal_type)
    ensures TakenOrKept(u.target_value, g.target_value, r.target_value)
    ensures TakenOrKept(u.current_value, g.current_value, r.current_value)
    ensures TakenOrKept(u.deadline, g.deadline, r.deadline)
    ensures TakenOrKept(u.stake_amount, g.stake_amount, r.stake_amount)
    ensures TakenOrKept(u.status, g.status, r.status)
    ensures TakenOrKept(u.verification_method, g.verification_method, r.verification_method)
    ensures TakenOrKept(u.verification_data, g.verification_data, r.verification_data)
    ensures u == NoGoalChange ==> r == g
  {
    g.(title := Pick(u.title, g.title),
       description := Pick(u.description, g.description),
       goal_type := Pick(u.goal_type, g.goal_type),
       target_value := Pick(u.target_value, g.target_value),
       current_value := Pick(u.current_value, g.current_value),
       deadline := Pick(u.deadline, g.deadline),
       stake_amount := Pick(u.stake_amount, g.stake_amount),
       status := Pick(u.status, g.status),
       verification_method := Pick(u.verification_method, g.verification_method),
       verification_data := Pick(u.verification_data, g.verification_data))
  }

  /** Whatever two updates do, they leave the same identity columns. */
  lemma GoalUpdatesKeepIdentity(g: Goal, u: GoalUpdate, v: GoalUpdate)
    ensures var a := ApplyGoalUpdate(g, u); var b := ApplyGoalUpdate(g, v);
      a.id == b.id && a.user_id == b.user_id && a.created_at == b.created_at && a.updated_at == b.updated_at
  {
  }

  // ----------------------------------------------------------- alarm shapes

  /** An alarm as a caller creates it: no `id`, timestamps or `last_triggered`. */
  datatype AlarmClockInsert = AlarmClockInsert(
    user_id: Id,
    goal_id: Option<Id>,
    title: string,
    alarm_time: nat,
    timezone: string,
    code: string,
    stake_amount: Cents,
    is_active: bool)

  /** The stored alarm for an insert: it has never been triggered. */
  function AlarmFromInsert(a: AlarmClockInsert, id: Id, now: Timestamp): (r: AlarmClock)
    ensures r.last_triggered == None
    ensures r.id == id && r.created_at == now && r.updated_at == now
    ensures AlarmToInsert(r) == a
  {
    AlarmClock(id, a.user_id, a.goal_id, a.title, a.alarm_time, a.timezone, a.code,
      a.stake_amount, a.is_active, None, now, now)
  }

  /** The caller-supplied part of a stored alarm. */
  function AlarmToInsert(a: AlarmClock): AlarmClockInsert
  {
    AlarmClockInsert(a.user_id, a.goal_id, a.title, a.alarm_time, a.timezone, a.code,
      a.stake_amount, a.is_active)
  }

  /** A change to an alarm: any subset of the columns other than `id`,
      `user_id`, `created_at` and `updated_at`. */
  datatype AlarmClockUpdate = AlarmClockUpdate(
    goal_id: Option<Option<Id>>,
    title: Option<string>,
    alarm_time: Option<nat>,
    timezone: Option<string>,
    code: Option<string>,
    stake_amount: Option<Cents>,
    is_active: Option<bool>,
    last_triggered: Option<Option<Timestamp>>)

  function ApplyAlarmClockUpdate(a: AlarmClock, u: AlarmClockUpdate): (r: AlarmClock)
    ensures r.id == a.id && r.user_id == a.user_id
    ensures r.created_at == a.created_at && r.updated_at == a.updated_at
    ensures TakenOrKept(u.goal_id, a.goal_id, r.goal_id)
    ensures TakenOrKept(u.title, a.title, r.title)
    ensures TakenOrKept(u.alarm_time, a.alarm_time, r.alarm_time)
    ensures TakenOrKept(u.timezone, a.timezone, r.timezone)
    ensures TakenOrKept(u.code, a.code, r.code)
    ensures TakenOrKept(u.stake_amount, a.stake_amount, r.stake_amount)
    ensures TakenOrKept(u.is_active, a.is_active, r.is_active)
    ensures TakenOrKept(u.last_triggered, a.last_triggered, r.last_triggered)
  {
    a.(goal_id := Pick(u.goal_id, a.goal_id),
       title := Pick(u.title, a.title),
       alarm_time := Pick(u.alarm_time, a.alarm_time),
       timezone := Pick(u.timezone, a.timezone),
       code := Pick(u.code, a.code),
       stake_amount := Pick(u.stake_amount, a.stake_amount),
       is_active := Pick(u.is_active, a.is_active),
       last_triggered := Pick(u.last_triggered, a.last_triggered))
  }

  // ------------------------------------------------------------ task shapes

  /** A task as a caller creates it: no `id`, timestamps, `is_completed` or
      `completed_at`. */
  datatype TaskInsert = TaskInsert(
    user_id: Id,
    goal_id: Option<Id>,
    title: string,
    description: Option<string>,
    reward_amount: Cents,
    due_date: Option<Timestamp>)

  /** The stored task for an insert: not completed, with no completion time,
      whatever the caller supplied. */
  function TaskFromInsert(t: TaskInsert, id: Id, now: Timestamp): (r: Task)
    ensures !r.is_completed && r.completed_at.None?
    ensures r.id == id && r.created_at == now && r.updated_at == now
    ensures TaskToInsert(r) == t
  {
    Task(id, t.user_id, t.goal_id, t.title, t.description, t.reward_amount,
      false, None, t.due_date, now, now)
  }

  /** The caller-supplied part of a stored task. */
  function TaskToInsert(t: Task): TaskInsert
  {
    TaskInsert(t.user_id, t.goal_id, t.title, t.description, t.reward_amount, t.due_date)
  }
}

=== FILE: screen_time.dfy ===
/** The home screen's screen-time arithmetic: usage against a daily limit,
    the remaining minutes, the share of the limit used and its colour, the
    `"{h}h {m}m"` rendering of a duration, and the edits of the daily limit.
    All durations are whole minutes. */
module ScreenTime {
  import opened Wrappers
  import opened Text

  // ------------------------------------------------------------- rendering

  /** `formatTime`: whole hours and the remaining minutes, hours omitted when zero. */
  function FormatTime(minutes: nat): (r: string)
    ensures |r| >= 2 && r[|r| - 1] == 'm'
    ensures 'h' in r <==> minutes >= 60
  {
    var hours := minutes / 60;
    var mins := minutes % 60;
    NoLetterInDigits(NatToString(hours), 'h');
    NoLetterInDigits(NatToString(mins), 'h');
    if hours > 0 then
      var r := NatToString(hours) + "h " + NatToString(mins) + "m";
      assert r[|NatToString(hours)|] == 'h';
      r
    else NatToString(mins) + "m"
  }

  lemma NoLetterInDigits(s: string, c: char)
    requires AllDigits(s) && !IsDigit(c)
    ensures c !in s
  {
  }

  /** Reads a duration in the form `FormatTime` writes: `"{m}m"` or
      `"{h}h {m}m"`, with decimal numerals (no leading zeros), the minutes
      below 60 and the hours, when shown, above 0. Anything else is `None`. */
  function ParseDuration(s: string): Option<nat>
  {
    if |s| == 0 || s[|s| - 1] != 'm' then None else ParseClock(s[..|s| - 1])
  }

  function ParseClock(body: string): Option<nat>
  {
    match IndexOf(body, 'h')
    case None => ParseMinutes(body)
    case Some(k) => ParseHours(body[..k], body[k + 1..])
  }

  /** The minutes part: decimal digits denoting less than an hour. */
  function ParseMinutes(t: string): Option<nat>
  {
    if IsNumeral(t) && DigitsValue(t) < 60 then Some(DigitsValue(t)) else None
  }

  function ParseHours(hours: string, rest: string): Option<nat>
  {
    if IsNumeral(hours) && DigitsValue(hours) > 0 && |rest| > 0 && rest[0] == ' ' then
      match ParseMinutes(rest[1..])
      case None => None
      case Some(mins) => Some(60 * DigitsValue(hours) + mins)
    else None
  }

  /** A duration read back from text shows whole hours and the minutes left
      over: the hours are the quotient by 60 and the minutes the remainder. */
  lemma ParsedHoursAreQuotient(hours: string, rest: string)
    requires ParseHours(hours, rest).Some?
    ensures var v := ParseHours(hours, rest).value;
      DigitsValue(hours) == v / 60 && ParseMinutes(rest[1..]) == Some(v % 60) && v >= 60
  {
    var v := ParseHours(hours, rest).value;
    var h, mm := DigitsValue(hours), ParseMinutes(rest[1..]).value;
    assert v == 60 * h + mm && 0 <= mm < 60;
    DivModOfSixty(h, mm);
  }

  lemma DivModOfSixty(h: nat, mm: nat)
    requires mm < 60
    ensures (60 * h + mm) / 60 == h && (60 * h + mm) % 60 == mm
  {
  }

  /** The rendering of a duration reads back as the same number of minutes;
      with the minutes shown below 60 and the hours above 0, they are
      `m / 60` and `m % 60`. */
  lemma FormatTimeRoundTrip(m: nat)
    ensures ParseDuration(FormatTime(m)) == Some(m)
  {
    if m >= 60 {
      HoursRoundTrip(m);
    } else {
      MinutesRoundTrip(m);
    }
  }

  lemma MinutesRoundTrip(m: nat)
    requires m < 60
    ensures ParseDuration(FormatTime(m)) == Some(m)
  {
    DigitsRoundTrip(m);
    RenderingIsNumeral(m);
    ShortForm(m);
    MinutesRead(NatToString(m));
  }

  lemma ShortForm(m: nat)
    requires m < 60
    ensures FormatTime(m) == NatToString(m) + "m"
  {
    assert m / 60 == 0 && m % 60 == m;
  }

  lemma LongForm(m: nat)
    requires m >= 60
    ensures FormatTime(m) == NatToString(m / 60) + "h " + NatToString(m % 60) + "m"
  {
  }

  lemma HoursRoundTrip(m: nat)
    requires m >= 60
    ensures ParseDuration(FormatTime(m)) == Some(m)
  {
    SixtyParts(m);
    LongForm(m);
    HoursShownRead(m / 60, m % 60);
  }

  lemma SixtyParts(m: nat)
    requires m >= 60
    ensures m / 60 > 0 && m % 60 < 60 && 60 * (m / 60) + m % 60 == m
  {
  }

  /** Rendered hours and minutes read back as their total. */
  lemma HoursShownRead(h: nat, mm: nat)
    requires h > 0 && mm < 60
    ensures ParseDuration(NatToString(h) + "h " + NatToString(mm) + "m") == Some(60 * h + mm)
  {
    var a, b := NatToString(h), NatToString(mm);
    DigitsRoundTrip(h);
    DigitsRoundTrip(mm);
    RenderingIsNumeral(h);
    RenderingIsNumeral(mm);
    HoursAndMinutesRead(a, b, h, mm);
  }

  lemma MinutesRead(b: string)
    requires IsNumeral(b) && DigitsValue(b) < 60
    ensures ParseDuration(b + "m") == Some(DigitsValue(b))
  {
    NoLetterInDigits(b, 'h');
    DurationBody(b);
  }

  lemma HoursAndMinutesRead(a: string, b: string, h: nat, mm: nat)
    requires IsNumeral(a) && DigitsValue(a) == h && h > 0
    requires IsNumeral(b) && DigitsValue(b) == mm && mm < 60
    ensures ParseDuration(a + "h " + b + "m") == Some(60 * h + mm)
  {
    DurationBody(a + "h " + b);
    ClockWithHours(a, b);
    HoursRead(a, b);
  }

  /** The text before the closing `m` is what gets read. */
  lemma DurationBody(body: string)
    ensures ParseDuration(body + "m") == ParseClock(body)
  {
    assert (body + "m")[..|body|] == body;
  }

  lemma ClockWithHours(a: string, b: string)
    requires AllDigits(a)
    ensures ParseClock(a + "h " + b) == ParseHours(a, " " + b)
  {
    var body := a + "h " + b;
    FirstLetterAfterDigits(a, b);
    assert body[..|a|] == a;
    assert body[|a| + 1..] == " " + b;
  }

  lemma HoursRead(a: string, b: string)
    requires IsNumeral(a) && DigitsValue(a) > 0
    requires IsNumeral(b) && DigitsValue(b) < 60
    ensures ParseHours(a, " " + b) == Some(60 * DigitsValue(a) + DigitsValue(b))
  {
    assert (" " + b)[1..] == b;
  }

  /** In `a + "h " + b` with `a` all digits, the first `h` follows `a`. */
  lemma FirstLetterAfterDigits(a: string, b: string)
    requires AllDigits(a)
    ensures IndexOf(a + "h " + b, 'h') == Some(|a|)
  {
    var body := a + "h " + b;
    assert body[|a|] == 'h';
    NoLetterInDigits(a, 'h');
  }

  /** The only text that reads back as a duration is that duration's
      rendering: together with `FormatTimeRoundTrip`, `ParseDuration` is
      the exact inverse of `FormatTime`, so the rendering is `"{m}m"` below
      an hour and `"{m / 60}h {m % 60}m"` from an hour on, both unpadded. */
  lemma ReadDurationIsRendering(s: string)
    requires ParseDuration(s).Some?
    ensures s == FormatTime(ParseDuration(s).value)
  {
    var body := s[..|s| - 1];
    assert s == body + "m";
    ClockRendering(body);
  }

  lemma ClockRendering(body: string)
    requires ParseClock(body).Some?
    ensures FormatTime(ParseClock(body).value) == body + "m"
  {
    match IndexOf(body, 'h')
    case None =>
      MinutesRendering(body);
    case Some(k) =>
      SplitAtLetter(body, k);
  }

  /** A body read as hours and minutes is rendered back as itself. */
  lemma SplitAtLetter(body: string, k: nat)
    requires k < |body| && body[k] == 'h'
    requires ParseHours(body[..k], body[k + 1..]).Some?
    ensures FormatTime(ParseHours(body[..k], body[k + 1..]).value) == body + "m"
  {
    HoursRendering(body[..k], body[k + 1..]);
    BodyAtLetter(body, k);
  }

  lemma BodyAtLetter(body: string, k: nat)
    requires k + 1 < |body| && body[k] == 'h' && body[k + 1] == ' '
    ensures body + "m" == body[..k] + "h " + body[k + 1..][1..] + "m"
  {
    var hours, rest := body[..k], body[k + 1..];
    assert body == hours + [body[k]] + rest;
    assert rest == [rest[0]] + rest[1..];
  }

  lemma MinutesRendering(t: string)
    requires ParseMinutes(t).Some?
    ensures FormatTime(ParseMinutes(t).value) == t + "m"
  {
    var m := DigitsValue(t);
    NumeralIsRendering(t);
    assert m / 60 == 0 && m % 60 == m;
  }

  lemma HoursRendering(hours: string, rest: string)
    requires ParseHours(hours, rest).Some?
    ensures FormatTime(ParseHours(hours, rest).value) == hours + "h " + rest[1..] + "m"
  {
    var m := ParseHours(hours, rest).value;
    ParsedHoursAreQuotient(hours, rest);
    NumeralIsRendering(hours);
    NumeralIsRendering(rest[1..]);
    assert NatToString(m / 60) == hours && NatToString(m % 60) == rest[1..];
  }

  /** Different durations never render alike. */
  lemma FormatTimeInjective(m: nat, n: nat)
    requires FormatTime(m) == FormatTime(n)
    ensures m == n
  {
    FormatTimeRoundTrip(m);
    FormatTimeRoundTrip(n);
  }

  // ---------------------------------------------------------- usage figures

  predicate IsLimitExceeded(current: int, limit: int)
  {
    current >= limit
  }

  /** `minutesRemaining`: what is left of the limit, never negative. */
  function MinutesRemaining(current: int, limit: int): (r: nat)
    ensures r == 0 <==> IsLimitExceeded(current, limit)
    ensures r > 0 ==> current + r == limit
  {
    if limit - current > 0 then limit - current else 0
  }

  /** `percentageUsed`: the share of the limit used, in percent, capped at 100. */
  function PercentageUsed(current: int, limit: int): (r: real)
    requires limit > 0
    ensures r <= 100.0
    ensures r == 100.0 <==> IsLimitExceeded(current, limit)
    ensures r < 100.0 ==> r * (limit as real) == 100.0 * (current as real)
    ensures current >= 0 ==> r >= 0.0
  {
    var p := (current as real / limit as real) * 100.0;
    ScaledShare(current as real, limit as real);
    if p < 100.0 then p else 100.0
  }

  lemma ScaledShare(c: real, l: real)
    requires l > 0.0
    ensures (c / l) * 100.0 < 100.0 <==> c < l
    ensures (c / l) * 100.0 * l == 100.0 * c
    ensures c >= 0.0 ==> (c / l) * 100.0 >= 0.0
  {
    assert (c / l) * l == c;
  }

  /** The progress bar's colour: red from the limit on, orange from 80% on,
      otherwise the theme's tint. */
  datatype ProgressColor = Red | Orange | Tint

  function GetProgressColor(percentageUsed: real): ProgressColor
  {
    if percentageUsed >= 100.0 then Red
    else if percentageUsed >= 80.0 then Orange
    else Tint
  }

  /** The colour thresholds restated on whole minutes: red exactly when the
      limit is reached, orange from four fifths of it, tint below that. */
  lemma ProgressColorThresholds(current: int, limit: int)
    requires limit > 0
    ensures GetProgressColor(PercentageUsed(current, limit)) == Red <==> IsLimitExceeded(current, limit)
    ensures GetProgressColor(PercentageUsed(current, limit)) == Orange <==> current < limit && 5 * current >= 4 * limit
    ensures GetProgressColor(PercentageUsed(current, limit)) == Tint <==> 5 * current < 4 * limit
  {
    var p := PercentageUsed(current, limit);
    if p < 100.0 {
      EightyPercent(p, current as real, limit as real);
    }
  }

  lemma EightyPercent(p: real, c: real, l: real)
    requires l > 0.0 && p * l == 100.0 * c
    ensures p >= 80.0 <==> 5.0 * c >= 4.0 * l
  {
    if p >= 80.0 {
      assert p * l >= 80.0 * l;
    } else {
      assert p * l < 80.0 * l;
    }
  }

  // ------------------------------------------------------ the daily limit

  /** The limit the screen starts with, in minutes. */
  const InitialDailyLimit: int := 120

  datatype HomeState = HomeState(
    currentScreenTime: int,
    dailyLimit: int,
    isEditingLimit: bool,
    tempLimit: string)

  function InitialHome(): (s: HomeState)
    ensures s.dailyLimit == InitialDailyLimit && s.dailyLimit > 0
    ensures s.currentScreenTime == 0 && !s.isEditingLimit
  {
    HomeState(0, InitialDailyLimit, false, "120")
  }

  /** What the screen tells the user after Save. */
  datatype LimitAlert = InvalidLimit | LimitUpdated(limit: int)

  /** `handleSetLimit`: parses the typed text; a missing number or one not
      above zero is refused and nothing changes; otherwise the number becomes
      the limit and editing ends. */
  function HandleSetLimit(s: HomeState): (r: (HomeState, LimitAlert))
    ensures r.1 == InvalidLimit <==> ParseInt(s.tempLimit).None? || ParseInt(s.tempLimit).value <= 0
    ensures r.1 == InvalidLimit ==> r.0 == s
    ensures r.1 != InvalidLimit ==>
      && r.1 == LimitUpdated(r.0.dailyLimit)
      && Some(r.0.dailyLimit) == ParseInt(s.tempLimit)
      && r.0 == s.(dailyLimit := r.0.dailyLimit, isEditingLimit := false)
    ensures r.0.dailyLimit > 0 || r.0.dailyLimit == s.dailyLimit
  {
    match ParseInt(s.tempLimit)
    case None => (s, InvalidLimit)
    case Some(limit) =>
      if limit <= 0 then (s, InvalidLimit)
      else (s.(dailyLimit := limit, isEditingLimit := false), LimitUpdated(limit))
  }

  /** The user's actions on the home screen, and the minute count the
      tracking timer reports. */
  datatype HomeAction =
    | EditLimit             // opens the editor pre-filled with the current limit
    | TypeLimit(text: string)
    | CancelEdit
    | SaveLimit
    | ResetTime             // confirmed "Reset Today's Time"
    | Track(minutes: int)   // the timer's elapsed minutes

  function Step(s: HomeState, a: HomeAction): HomeState
  {
    match a
    case EditLimit => s.(isEditingLimit := true, tempLimit := IntToString(s.dailyLimit))
    case TypeLimit(t) => s.(tempLimit := t)
    case CancelEdit => s.(isEditingLimit := false)
    case SaveLimit => HandleSetLimit(s).0
    case ResetTime => s.(currentScreenTime := 0)
    case Track(m) => s.(currentScreenTime := m)
  }

  function Run(s: HomeState, actions: seq<HomeAction>): HomeState
    decreases |actions|
  {
    if |actions| == 0 then s else Run(Step(s, actions[0]), actions[1..])
  }

  /** The daily limit stays positive through any sequence of actions. */
  lemma {:induction false} RunKeepsLimitPositive(s: HomeState, actions: seq<HomeAction>)
    requires s.dailyLimit > 0
    ensures Run(s, actions).dailyLimit > 0
    decreases |actions|
  {
    if |actions| > 0 {
      RunKeepsLimitPositive(Step(s, actions[0]), actions[1..]);
    }
  }

  /** Every state the screen can reach has a positive limit, so the share
      of it used is always defined. */
  lemma ReachableLimitPositive(actions: seq<HomeAction>)
    ensures Run(InitialHome(), actions).dailyLimit > 0
  {
    RunKeepsLimitPositive(InitialHome(), actions);
  }

  /** Opening the editor and saving without typing keeps a limit that a
      JavaScript `number` holds exactly. */
  lemma EditThenSaveKeepsLimit(s: HomeState)
    requires 0 < s.dailyLimit <= MaxSafeInteger
    ensures Run(s, [EditLimit, SaveLimit]).dailyLimit == s.dailyLimit
    ensures !Run(s, [EditLimit, SaveLimit]).isEditingLimit
  {
    NatToStringRoundTrip(s.dailyLimit);
    assert [EditLimit, SaveLimit][1..] == [SaveLimit];
  }

  /** After a reset nothing of the limit is used. */
  lemma ResetClearsUsage(s: HomeState)
    requires s.dailyLimit > 0
    ensures var r := Step(s, ResetTime);
      && r.currentScreenTime == 0
      && MinutesRemaining(r.currentScreenTime, r.dailyLimit) == r.dailyLimit
      && !IsLimitExceeded(r.currentScreenTime, r.dailyLimit)
      && PercentageUsed(r.currentScreenTime, r.dailyLimit) == 0.0
  {
  }
}

=== FILE: seqs.dfy ===
/** Sequence operations behind the table queries and list screens:
    filtering, ordering and limiting rows. */
module Seqs {

  /** `r` can be obtained from `s` by deleting elements: the relative order of
      the kept elements is unchanged. */
  predicate IsSubsequence<T(==)>(r: seq<T>, s: seq<T>)
    decreases |s|
  {
    if |r| == 0 then true
    else if |s| == 0 then false
    else (r[0] == s[0] && IsSubsequence(r[1..], s[1..])) || IsSubsequence(r, s[1..])
  }

  /** The elements of `s` satisfying `p`, in their original order. */
  function Filter<T(==,!new)>(s: seq<T>, p: T -> bool): (r: seq<T>)
    ensures |r| <= |s|
    ensures forall x :: x in r <==> x in s && p(x)
    ensures forall i :: 0 <= i < |r| ==> p(r[i])
    decreases |s|
  {
    if |s| == 0 then []
    else
      var rest := Filter(s[1..], p);
      assert s == [s[0]] + s[1..];
      if p(s[0]) then [s[0]] + rest else rest
  }

  /** Filtering keeps every satisfying element as often as it occurs, and no other. */
  lemma {:induction false} FilterMultiset<T(!new)>(s: seq<T>, p: T -> bool)
    ensures forall x :: multiset(Filter(s, p))[x] == if p(x) then multiset(s)[x] else 0
    decreases |s|
  {
    if |s| > 0 {
      FilterMultiset(s[1..], p);
      assert s == [s[0]] + s[1..];
    }
  }

  /** Filtering only deletes elements: the kept ones stay in order. */
  lemma {:induction false} FilterIsSubsequence<T(!new)>(s: seq<T>, p: T -> bool)
    ensures IsSubsequence(Filter(s, p), s)
    decreases |s|
  {
    if |s| > 0 {
      FilterIsSubsequence(s[1..], p);
      var rest := Filter(s[1..], p);
      if p(s[0]) {
        assert ([s[0]] + rest)[1..] == rest;
      }
    }
  }

  /** Filtering with a predicate every element satisfies keeps the whole sequence. */
  lemma {:induction false} FilterKeepsAll<T(!new)>(s: seq<T>, p: T -> bool)
    requires forall i :: 0 <= i < |s| ==> p(s[i])
    ensures Filter(s, p) == s
    decreases |s|
  {
    if |s| > 0 {
      FilterKeepsAll(s[1..], p);
      assert s == [s[0]] + s[1..];
    }
  }

  /** Filtering depends only on which elements the predicate accepts. */
  lemma {:induction false} FilterCongruent<T(!new)>(s: seq<T>, p: T -> bool, q: T -> bool)
    requires forall x :: p(x) == q(x)
    ensures Filter(s, p) == Filter(s, q)
    decreases |s|
  {
    if |s| > 0 {
      FilterCongruent(s[1..], p, q);
    }
  }

  /** A stronger predicate keeps a subsequence of what a weaker one keeps. */
  lemma {:induction false} FilterMonotone<T(!new)>(s: seq<T>, p: T -> bool, q: T -> bool)
    requires forall x :: p(x) ==> q(x)
    ensures IsSubsequence(Filter(s, p), Filter(s, q))
    decreases |s|
  {
    if |s| > 0 {
      FilterMonotone(s[1..], p, q);
      var rp, rq := Filter(s[1..], p), Filter(s[1..], q);
      if p(s[0]) {
        assert ([s[0]] + rp)[1..] == rp;
        assert ([s[0]] + rq)[1..] == rq;
      } else if q(s[0]) {
        assert ([s[0]] + rq)[1..] == rq;
      }
    }
  }

  /** Filtering a sequence with one more element at the end. */
  lemma {:induction false} FilterAppend<T(!new)>(s: seq<T>, x: T, p: T -> bool)
    ensures Filter(s + [x], p) == Filter(s, p) + (if p(x) then [x] else [])
    decreases |s|
  {
    if |s| == 0 {
      assert s + [x] == [x];
    } else {
      var t := s + [x];
      assert t[0] == s[0];
      assert t[1..] == s[1..] + [x];
      FilterAppend(s[1..], x, p);
    }
  }

  /** `s` with every element satisfying `p` replaced by its image under `f`. */
  function MapWhere<T>(s: seq<T>, p: T -> bool, f: T -> T): (r: seq<T>)
    ensures |r| == |s|
    ensures forall i :: 0 <= i < |s| ==> r[i] == if p(s[i]) then f(s[i]) else s[i]
  {
    seq(|s|, i requires 0 <= i < |s| => if p(s[i]) then f(s[i]) else s[i])
  }

  /** Number of elements of `s` satisfying `p`. */
  function Count<T>(s: seq<T>, p: T -> bool): (n: nat)
    ensures n <= |s|
    ensures n == 0 <==> forall i :: 0 <= i < |s| ==> !p(s[i])
    decreases |s|
  {
    if |s| == 0 then 0
    else (if p(s[0]) then 1 else 0) + Count(s[1..], p)
  }

  /** A filter keeps as many elements as satisfy its predicate. */
  lemma {:induction false} FilterLength<T(!new)>(s: seq<T>, p: T -> bool)
    ensures |Filter(s, p)| == Count(s, p)
    decreases |s|
  {
    if |s| > 0 {
      FilterLength(s[1..], p);
    }
  }

  /** `le` is a total preorder: any two elements compare, and comparisons chain. */
  ghost predicate TotalPreorder<T(!new)>(le: (T, T) -> bool)
  {
    && (forall x, y :: le(x, y) || le(y, x))
    && (forall x, y, z :: le(x, y) && le(y, z) ==> le(x, z))
  }

  /** Every element is `le` every element after it. */
  predicate SortedBy<T>(s: seq<T>, le: (T, T) -> bool)
  {
    forall i, j :: 0 <= i < j < |s| ==> le(s[i], s[j])
  }

  /** Places `x` into the sorted sequence `s` before the first element it is `le`. */
  function InsertBy<T(!new)>(x: T, s: seq<T>, le: (T, T) -> bool): (r: seq<T>)
    requires TotalPreorder(le)
    requires SortedBy(s, le)
    ensures SortedBy(r, le)
    ensures multiset(r) == multiset(s) + multiset{x}
    ensures |r| == |s| + 1
    decreases |s|
  {
    if |s| == 0 then [x]
    else if le(x, s[0]) then
      assert s == [s[0]] + s[1..];
      [x] + s
    else
      var rest := InsertBy(x, s[1..], le);
      HeadBelowAll(s, x, rest, le);
      assert s == [s[0]] + s[1..];
      [s[0]] + rest
  }

  /** The first element of a sorted `s` is `le` everything in a rearrangement
      of its tail together with an `x` it is `le`. */
  lemma HeadBelowAll<T(!new)>(s: seq<T>, x: T, rest: seq<T>, le: (T, T) -> bool)
    requires TotalPreorder(le)
    requires |s| > 0 && SortedBy(s, le) && !le(x, s[0])
    requires multiset(rest) == multiset(s[1..]) + multiset{x}
    ensures forall j :: 0 <= j < |rest| ==> le(s[0], rest[j])
  {
    forall j | 0 <= j < |rest|
      ensures le(s[0], rest[j])
    {
      assert rest[j] in multiset(rest);
      if rest[j] != x {
        assert rest[j] in multiset(s[1..]);
        var k :| 0 <= k < |s[1..]| && s[1..][k] == rest[j];
        assert s[k + 1] == rest[j];
      }
    }
  }

  /** Insertion sort: a rearrangement of `s` ordered by `le`. */
  function SortBy<T(!new)>(s: seq<T>, le: (T, T) -> bool): (r: seq<T>)
    requires TotalPreorder(le)
    ensures SortedBy(r, le)
    ensures multiset(r) == multiset(s)
    ensures |r| == |s|
    decreases |s|
  {
    if |s| == 0 then []
    else
      assert s == [s[0]] + s[1..];
      InsertBy(s[0], SortBy(s[1..], le), le)
  }

  /** The first `n` elements of `s`, or all of them when there are fewer. */
  function Take<T>(s: seq<T>, n: nat): (r: seq<T>)
    ensures |r| == if n <= |s| then n else |s|
    ensures r <= s
  {
    if n <= |s| then s[..n] else s
  }

  /** A prefix holds no element more often than the whole. */
  lemma TakeIsSubMultiset<T>(s: seq<T>, n: nat)
    ensures forall x :: multiset(Take(s, n))[x] <= multiset(s)[x]
  {
    var k := |Take(s, n)|;
    assert s == s[..k] + s[k..];
  }

  /** Cutting a sorted sequence keeps an ordered prefix, and every element
      that was cut off is `le`-after every element that was kept. */
  lemma {:induction false} TakeOfSorted<T>(s: seq<T>, n: nat, le: (T, T) -> bool)
    requires SortedBy(s, le)
    ensures SortedBy(Take(s, n), le)
    ensures forall x, y :: x in Take(s, n) && multiset(Take(s, n))[y] < multiset(s)[y] ==> le(x, y)
  {
    var k := |Take(s, n)|;
    assert s == s[..k] + s[k..];
    assert Take(s, n) == s[..k];
    forall x, y | x in Take(s, n) && multiset(Take(s, n))[y] < multiset(s)[y]
      ensures le(x, y)
    {
      assert y in multiset(s[k..]);
      var j :| 0 <= j < |s[k..]| && s[k..][j] == y;
      var i :| 0 <= i < k && s[i] == x;
      assert s[k + j] == y;
    }
  }
}

=== FILE: text.dfy ===
/** String handling the screens rely on: decimal rendering and parsing
    (`toString`, `parseInt(_, 10)`), whitespace trimming (`trim`),
    case folding (`toLowerCase`), substring search (`includes`) and the
    name ordering used to sort app lists. Characters are compared by code
    point; case folding covers the ASCII letters only. */
module Text {
  import opened Wrappers
  import Seqs

  // ---------------------------------------------------------------- digits

  predicate IsDigit(c: char)
  {
    '0' <= c <= '9'
  }

  predicate AllDigits(s: string)
  {
    forall i :: 0 <= i < |s| ==> IsDigit(s[i])
  }

  function DigitChar(d: nat): (c: char)
    requires d < 10
    ensures IsDigit(c)
  {
    ['0', '1', '2', '3', '4', '5', '6', '7', '8', '9'][d]
  }

  function DigitValue(c: char): (d: nat)
    requires IsDigit(c)
    ensures d < 10
    ensures DigitChar(d) == c
  {
    (c as int - '0' as int) as nat
  }

  /** JavaScript's `Number.MAX_SAFE_INTEGER`, 2^53 - 1. A `number` holds every
      integer up to it exactly, and `String` writes each of them in plain
      decimal; above it `parseInt` rounds, and from 10^21 on `String` writes
      exponent form. */
  const MaxSafeInteger: nat := 9007199254740991

  /** Decimal rendering of a natural number, without leading zeros. For
      `n <= MaxSafeInteger` it is what JavaScript's `String(n)` writes. */
  function NatToString(n: nat): (s: string)
    ensures |s| >= 1
    ensures AllDigits(s)
    ensures |s| > 1 ==> s[0] != '0'
    decreases n
  {
    if n < 10 then [DigitChar(n)] else NatToString(n / 10) + [DigitChar(n % 10)]
  }

  /** Decimal rendering of an integer, with a leading `-` when negative. */
  function IntToString(i: int): (s: string)
    ensures i >= 0 ==> s == NatToString(i)
    ensures i < 0 ==> s == "-" + NatToString(-i)
  {
    if i < 0 then "-" + NatToString(-i) else NatToString(i)
  }

  /** The number a string of decimal digits denotes (most significant first). */
  function DigitsValue(s: string): nat
    requires AllDigits(s)
    decreases |s|
  {
    if |s| == 0 then 0 else 10 * DigitsValue(s[..|s| - 1]) + DigitValue(s[|s| - 1])
  }

  /** The digits `NatToString` writes denote the number written. */
  lemma {:induction false} DigitsRoundTrip(n: nat)
    ensures DigitsValue(NatToString(n)) == n
    decreases n
  {
    var s := NatToString(n);
    if n >= 10 {
      DigitsRoundTrip(n / 10);
      assert s[..|s| - 1] == NatToString(n / 10);
      assert DigitValue(s[|s| - 1]) == n % 10;
    } else {
      assert DigitValue(s[0]) == n;
    }
  }

  /** A decimal numeral as `NatToString` writes it: digits, no leading zero. */
  predicate IsNumeral(t: string)
  {
    |t| > 0 && AllDigits(t) && (|t| == 1 || t[0] != '0')
  }

  /** What `NatToString` writes is a numeral. */
  lemma RenderingIsNumeral(n: nat)
    ensures IsNumeral(NatToString(n))
  {
  }

  /** A numeral is the rendering of the number it denotes: each number has
      exactly one numeral. */
  lemma {:induction false} NumeralIsRendering(t: string)
    requires IsNumeral(t)
    ensures NatToString(DigitsValue(t)) == t
    decreases |t|
  {
    var d := DigitValue(t[|t| - 1]);
    if |t| == 1 {
      assert DigitsValue(t) == 10 * DigitsValue([]) + d;
    } else {
      var p := t[..|t| - 1];
      NumeralIsRendering(p);
      assert p[0] == t[0];
      assert DigitsValue(p) > 0;
      var v := DigitsValue(t);
      assert v == 10 * DigitsValue(p) + d;
      assert v / 10 == DigitsValue(p) && v % 10 == d;
      assert t == p + [t[|t| - 1]];
    }
  }

  /** The longest prefix of `s` made of decimal digits. */
  function LeadingDigits(s: string): (d: string)
    ensures d <= s
    ensures AllDigits(d)
    ensures |d| == |s| || !IsDigit(s[|d|])
    decreases |s|
  {
    if |s| > 0 && IsDigit(s[0]) then [s[0]] + LeadingDigits(s[1..]) else []
  }

  // ------------------------------------------------------------ whitespace

  /** The white-space and line-terminator characters that JavaScript's `trim`
      and `parseInt` skip, as far as this model knows them: tab, line feed,
      vertical tab, form feed, carriage return, space, no-break space, the
      line and paragraph separators and the byte-order mark. The other
      Unicode space separators (U+1680, U+2000 to U+200A, U+202F, U+205F,
      U+3000) are left out. */
  predicate IsSpace(c: char)
  {
    c == ' ' || c == '\t' || c == '\n' || c == '\r' || c == '\U{000B}' || c == '\U{000C}'
    || c == '\U{00A0}' || c == '\U{2028}' || c == '\U{2029}' || c == '\U{FEFF}'
  }

  predicate AllSpace(s: string)
  {
    forall i :: 0 <= i < |s| ==> IsSpace(s[i])
  }

  /** How many white-space characters `s` starts with. */
  function LeadingSpaces(s: string): (n: nat)
    ensures n <= |s|
    ensures forall j :: 0 <= j < n ==> IsSpace(s[j])
    ensures n == |s| || !IsSpace(s[n])
    decreases |s|
  {
    if |s| > 0 && IsSpace(s[0]) then 1 + LeadingSpaces(s[1..]) else 0
  }

  /** Where the white space `s` ends with begins. */
  function TrailingSpacesFrom(s: string): (n: nat)
    ensures n <= |s|
    ensures forall j :: n <= j < |s| ==> IsSpace(s[j])
    ensures n == 0 || !IsSpace(s[n - 1])
    decreases |s|
  {
    if |s| > 0 && IsSpace(s[|s| - 1]) then TrailingSpacesFrom(s[..|s| - 1]) else |s|
  }

  /** `s` without its leading white space. */
  function TrimStart(s: string): string
  {
    s[LeadingSpaces(s)..]
  }

  /** `s` is `r` padded with white space: `i` characters before, the rest after. */
  predicate PaddedAt(s: string, r: string, i: int)
  {
    && 0 <= i && i + |r| <= |s| && s[i..i + |r|] == r
    && (forall j :: 0 <= j < i ==> IsSpace(s[j]))
    && (forall j :: i + |r| <= j < |s| ==> IsSpace(s[j]))
  }

  /** JavaScript's `String.prototype.trim`: `s` is white space, then the
      result, then white space, and the result neither starts nor ends
      with white space. */
  function Trim(s: string): (r: string)
    ensures PaddedAt(s, r, LeadingSpaces(s))
    ensures r == [] || (!IsSpace(r[0]) && !IsSpace(r[|r| - 1]))
    ensures r == [] <==> AllSpace(s)
  {
    var i := LeadingSpaces(s);
    var t := s[i..];
    var k := TrailingSpacesFrom(t);
    assert forall j :: i + k <= j < |s| ==> s[j] == t[j - i];
    s[i..i + k]
  }

  /** Trimming a trimmed string changes nothing. */
  lemma TrimIdempotent(s: string)
    ensures Trim(Trim(s)) == Trim(s)
  {
    var r := Trim(s);
    assert LeadingSpaces(r) == 0;
    assert r[0..] == r;
    assert TrailingSpacesFrom(r) == |r|;
    assert r[0..|r|] == r;
  }

  // --------------------------------------------------------------- parseInt

  /** JavaScript's `parseInt(s, 10)`: skip leading white space, read an
      optional sign and then the longest run of decimal digits; the rest of
      the string is ignored. `None` stands for `NaN` (no digit where one was
      expected). */
  function ParseInt(s: string): Option<int>
  {
    var t := TrimStart(s);
    var signed := |t| > 0 && (t[0] == '-' || t[0] == '+');
    var digits := if signed then LeadingDigits(t[1..]) else LeadingDigits(t);
    if |digits| == 0 then None
    else if signed && t[0] == '-' then Some(-(DigitsValue(digits) as int))
    else Some(DigitsValue(digits))
  }

  /** A plain run of digits reads as the number it denotes, as long as a
      JavaScript `number` holds that number exactly. */
  lemma ParseIntOfDigits(s: string)
    requires AllDigits(s) && |s| > 0 && DigitsValue(s) <= MaxSafeInteger
    ensures ParseInt(s) == Some(DigitsValue(s))
  {
    DigitsRead(s);
  }

  /** The model's `ParseInt` on a plain run of digits, at any size. */
  lemma DigitsRead(s: string)
    requires AllDigits(s) && |s| > 0
    ensures ParseInt(s) == Some(DigitsValue(s))
  {
    assert !IsSpace(s[0]);
    assert LeadingSpaces(s) == 0;
    assert TrimStart(s) == s;
    assert s + [] == s;
    LeadingDigitsOfDigits(s, []);
  }

  /** Only a minus sign makes the result negative. */
  lemma ParseIntNegative(s: string)
    requires ParseInt(s).Some? && ParseInt(s).value < 0
    ensures '-' in s
  {
    var t := TrimStart(s);
    assert t[0] == '-';
    assert s[LeadingSpaces(s)] == '-';
  }

  /** `parseInt` reads back what `toString` wrote for a safe integer. */
  lemma NatToStringRoundTrip(n: nat)
    requires n <= MaxSafeInteger
    ensures ParseInt(NatToString(n)) == Some(n)
  {
    DigitsRoundTrip(n);
    ParseIntOfDigits(NatToString(n));
  }

  /** Text after a safe integer that does not start with a digit is ignored. */
  lemma {:induction false} ParseIntIgnoresTail(n: nat, tail: string)
    requires n <= MaxSafeInteger
    requires tail == [] || !IsDigit(tail[0])
    ensures ParseInt(NatToString(n) + tail) == Some(n)
  {
    var s := NatToString(n);
    var u := s + tail;
    assert !IsSpace(u[0]);
    assert LeadingSpaces(u) == 0;
    assert TrimStart(u) == u;
    LeadingDigitsOfDigits(s, tail);
    DigitsRoundTrip(n);
  }

  lemma {:induction false} LeadingDigitsOfDigits(s: string, tail: string)
    requires AllDigits(s)
    requires tail == [] || !IsDigit(tail[0])
    ensures LeadingDigits(s + tail) == s
    decreases |s|
  {
    if |s| > 0 {
      LeadingDigitsOfDigits(s[1..], tail);
      assert (s + tail)[1..] == s[1..] + tail;
    } else {
      assert s + tail == tail;
    }
  }

  // ------------------------------------------------------- case and search

  /** ASCII case folding of one character. */
  function LowerChar(c: char): (l: char)
    ensures !('A' <= l <= 'Z')
    ensures !('A' <= c <= 'Z') ==> l == c
  {
    if 'A' <= c <= 'Z' then (c as int + 32) as char else c
  }

  /** `toLowerCase` restricted to ASCII letters. */
  function Lower(s: string): (r: string)
    ensures |r| == |s|
    ensures forall i :: 0 <= i < |s| ==> r[i] == LowerChar(s[i])
  {
    seq(|s|, i requires 0 <= i < |s| => LowerChar(s[i]))
  }

  /** Folding works character by character, so it distributes over concatenation. */
  lemma LowerAppend(a: string, b: string)
    ensures Lower(a + b) == Lower(a) + Lower(b)
  {
  }

  /** Folding is idempotent. */
  lemma LowerIdempotent(s: string)
    ensures Lower(Lower(s)) == Lower(s)
  {
  }

  predicate IsPrefix(p: string, s: string)
  {
    |p| <= |s| && s[..|p|] == p
  }

  /** JavaScript's `hay.includes(needle)`. */
  predicate Contains(hay: string, needle: string)
    decreases |hay|
  {
    IsPrefix(needle, hay) || (|hay| > 0 && Contains(hay[1..], needle))
  }

  /** `needle` occurs in `hay` starting at offset `i`. */
  predicate OccursAt(hay: string, needle: string, i: int)
  {
    0 <= i <= |hay| - |needle| && hay[i..i + |needle|] == needle
  }

  /** `Contains` holds exactly when `needle` occurs at some offset of `hay`. */
  lemma {:induction false} ContainsAtOffset(hay: string, needle: string)
    ensures Contains(hay, needle) <==> exists i :: OccursAt(hay, needle, i)
    decreases |hay|
  {
    if IsPrefix(needle, hay) {
      assert OccursAt(hay, needle, 0);
    } else if |hay| > 0 {
      ContainsAtOffset(hay[1..], needle);
      if Contains(hay[1..], needle) {
        var i :| OccursAt(hay[1..], needle, i);
        assert hay[i + 1..i + 1 + |needle|] == hay[1..][i..i + |needle|];
        assert OccursAt(hay, needle, i + 1);
      }
      if exists i :: OccursAt(hay, needle, i) {
        var i :| OccursAt(hay, needle, i);
        assert i != 0;
        assert hay[1..][i - 1..i - 1 + |needle|] == hay[i..i + |needle|];
        assert OccursAt(hay[1..], needle, i - 1);
      }
    }
  }

  /** A string containing `needle + more` contains `needle`. */
  lemma ContainsPrefixOfNeedle(hay: string, needle: string, more: string)
    requires Contains(hay, needle + more)
    ensures Contains(hay, needle)
  {
    ContainsAtOffset(hay, needle + more);
    var i :| OccursAt(hay, needle + more, i);
    assert hay[i..i + |needle|] == (needle + more)[..|needle|];
    assert OccursAt(hay, needle, i);
    ContainsAtOffset(hay, needle);
  }

  /** Every string contains the empty string. */
  lemma ContainsEmpty(hay: string)
    ensures Contains(hay, [])
  {
    assert IsPrefix([], hay);
  }

  /** Position of the first `c` in `s`. */
  function IndexOf(s: string, c: char): (r: Option<nat>)
    ensures r.None? <==> c !in s
    ensures r.Some? ==> r.value < |s| && s[r.value] == c && c !in s[..r.value]
    decreases |s|
  {
    if |s| == 0 then None
    else if s[0] == c then Some(0)
    else
      match IndexOf(s[1..], c)
      case None => None
      case Some(k) =>
        assert s[..k + 1] == [s[0]] + s[1..][..k];
        Some(k + 1)
  }

  // -------------------------------------------------------------- ordering

  /** Lexicographic order by code point, standing for `localeCompare(..) <= 0`. */
  predicate LexLe(a: string, b: string)
    decreases |a|
  {
    if |a| == 0 then true
    else if |b| == 0 then false
    else if a[0] == b[0] then LexLe(a[1..], b[1..])
    else a[0] < b[0]
  }

  lemma {:induction false} LexLeTotal(a: string, b: string)
    ensures LexLe(a, b) || LexLe(b, a)
    decreases |a|
  {
    if |a| > 0 && |b| > 0 && a[0] == b[0] {
      LexLeTotal(a[1..], b[1..]);
    }
  }

  lemma {:induction false} LexLeTransitive(a: string, b: string, c: string)
    requires LexLe(a, b) && LexLe(b, c)
    ensures LexLe(a, c)
    decreases |a|
  {
    if |a| > 0 && |b| > 0 && |c| > 0 && a[0] == b[0] && b[0] == c[0] {
      LexLeTransitive(a[1..], b[1..], c[1..]);
    }
  }

  /** `LexLe` can order any sequence of strings. */
  lemma LexLeTotalPreorder()
    ensures Seqs.TotalPreorder(LexLe)
  {
    forall a, b ensures LexLe(a, b) || LexLe(b, a) {
      LexLeTotal(a, b);
    }
    forall a, b, c | LexLe(a, b) && LexLe(b, c) ensures LexLe(a, c) {
      LexLeTransitive(a, b, c);
    }
  }
}

=== FILE: wrappers.dfy ===
/** Failure-carrying values shared by every module of the model. */
module Wrappers {

  /** A value that may be absent: the model's rendering of a nullable column
      or of an optional argument. */
  datatype Option<+T> = None | Some(value: T)

  /** The outcome of an operation that can fail with an error of type `E`. */
  datatype Result<+R, +E> = Ok(value: R) | Err(error: E)
}
